=== FILE: README.md ===
# GreenSwing front-end logic in Dafny

A model of the decision logic in the GreenSwing golf-equipment site's
single script, `js/script.js`. The DOM is replaced by plain records:
- elements carry attribute maps and text;
- cards and buttons carry a category and a flag;
- form fields carry a type, a `required` flag, a value and the error shown under them.

Every handler becomes a pure function from the old state to the new one. The
model covers these parts of the script:

- **`Storage`**: the `localStorage` facade that never lets an exception through.
- **`AppState`** and its two managers:
  - `ThemeManager`: set, toggle, get, start-up.
  - `LanguageManager`: the translation tables, `translate`, set, toggle, get,
    start-up, and the re-rendering of every element that declares per-language
    literals.
- **`ProductManager`**: the category filter and the results line.
- **`NavigationManager`**: the mobile menu and the highlighting of the current
  page's links.
- **`ContactManager`**:
  - field validation (required, e-mail and phone rules);
  - the error display;
  - the submit handler's accept/reject decision and its form data.
- **`GreenSwingApp.init`**: reduced to the start-up of these managers and its
  once-only flag.

Modules, one per file:
- `Common`: an `Option` type.
- `Text`: white space, `trim`, ASCII case mapping, decimal numerals.
- `Storage`.
- `Dom`: elements and attribute lookup.
- `AppState`: state, notifications and the world the setters act on.
- `ThemeManager`, `LanguageManager`, `ProductManager`, `NavigationManager`,
  `ContactManager`.
- `GreenSwingApp`.

Conventions worth knowing:

- **Storage faults.** The store has a health: `Healthy`, `Full` (every write
  throws, as on a quota error) or `Unavailable` (every call throws, as with
  storage disabled). An entry is a JSON value, an empty item, or text that
  does not parse. JSON encoding is the identity.
- **Notifications.** Each `themeChanged` / `languageChanged` event is recorded
  with a snapshot of what a synchronous listener could observe when it fired.
  "The notification comes last" is the statement that this snapshot equals
  the final state (`AppState.NotifiedLast`).
- **Attribute names.** `getAttribute` and `setAttribute` lower-case attribute
  names in HTML documents. So `setLanguage("TH")` reads the `data-th`
  literals, and the model does the same.
- **White space.** `trim` and the regular expressions' `\s` use the
  ECMAScript white-space and line-terminator set, enumerated in
  `Text.IsSpace`.

## Model

| member | source | states |
|---|---|---|
| Storage.Set | js/script.js:77-84 | on a working store the key then holds the serialised value; when the write throws (full or unavailable store) the store is unchanged; health never changes |
| Storage.Get | js/script.js:86-95 | returns the stored value exactly when the store is readable and the key holds text that parses; the default in every other case (missing key, empty item, malformed text, unavailable store) |
| Storage.Remove | js/script.js:97-103 | on a store that does not throw the key is gone, every other key keeps its entry and no key appears; on an unavailable store nothing changes |
| Storage.GetAfterSet | js/script.js:77-95 | a value written to a working store reads back, whatever the default |
| Storage.SetKeepsOtherKeys | js/script.js:77-95 | writing one key never changes what another key reads |
| Storage.SetOnFullStoreKeepsOldValue | js/script.js:77-95 | a write that throws on a full store leaves the old value readable, so the stored and in-memory preference can diverge |
| Storage.GetFallsBack | js/script.js:86-103 | a missing key, a removed key and an unavailable store all read as the default |
| Storage.SetIdempotent | js/script.js:77-103 | writing the same value twice equals writing it once; removing after a write equals removing |
| GreenSwingApp.FreshStartKeepsInitialState | js/script.js:4-8 | the preferences the script starts with (`en`, `light`, `all`) are exactly what a first start with nothing stored leaves in place: `init` with an empty store keeps the initial state |
| AppState.Publish | js/script.js:131-136 | persisting then dispatching: a working store gets the value under its key, every other key and the health kept; the store is unchanged otherwise; and exactly one notice is appended whose snapshot is the resulting world |
| ThemeManager.Icon | js/script.js:125-128 | the icon is the sun exactly for `dark` and the moon for every other theme |
| ThemeManager.Render | js/script.js:121-128 | the root's `data-theme` reads back as the theme and every other root attribute is kept; the icon, when the page has one, is the sun exactly for `dark`; elements, title, description and language indicator are untouched |
| ThemeManager.SetTheme | js/script.js:120-137 | any string becomes the current theme; the document is rendered for it (root attribute and icon only); a working store gets it under `theme`, every other key and the health kept; a failing store is untouched; a `themeChanged` notice carrying the theme is appended last |
| ThemeManager.Next | js/script.js:139-142 | the toggle target is always `light` or `dark`, and `dark` exactly when the theme was `light` |
| ThemeManager.Toggle | js/script.js:139-142 | the new theme is `Next` of the old (`dark` from `light`, `light` from anything else), so it is one of the two and differs from before; the language and category are kept; the document is rendered for it, a working store reads it back, a failing store is untouched, and the notice carries it |
| ThemeManager.Init | js/script.js:108-111 | start-up is exactly `SetTheme` of the value stored under `theme` when the store is readable and holds one, and of `light` in every other case: it renders, persists and notifies as `setTheme` does |
| ThemeManager.NextInvolution | js/script.js:139-142 | on the two themes, toggling is an involution |
| ThemeManager.ToggleTwice | js/script.js:120-142 | two toggles from `light`/`dark` restore the state and the root attribute, leave the icon (when there is one) showing the theme's symbol, and append two notices |
| ThemeManager.ToggleFromUnknown | js/script.js:139-142 | from a theme outside the two, one toggle gives `light`, two give `dark` |
| ThemeManager.InitDefaultsToLight | js/script.js:108-111 | with nothing stored or an unreadable store, start-up gives `light` and the moon icon |
| ThemeManager.InitKeepsUnknownTheme | js/script.js:108-111 | a stored theme outside `light`/`dark` is applied as is, not replaced by the default |
| ThemeManager.ToggleFromLight | js/script.js:120-142 | toggling from `light` gives `dark`, stores `dark`, and the last notice is `themeChanged` with `dark` |
| LanguageManager.Translate | js/script.js:282-284 | for `en` and `th` every one of the seventeen content keys translates to its table entry; the result is the key itself exactly when the language or the key is not one of those (the tables are fixed by `LanguageManager.TablesAgree`) |
| LanguageManager.TablesAgree | js/script.js:151-204 | exactly the `en` and `th` tables exist; both have the same key set and every entry is non-empty |
| LanguageManager.SeventeenKeys | js/script.js:151-204 | that key set has exactly seventeen keys |
| LanguageManager.TranslateUnknownLanguage | js/script.js:282-284 | under a language other than `en`/`th` every key translates to itself |
| LanguageManager.RenderElement | js/script.js:223-238 | an element's text becomes its `data-<lang>` literal and its placeholder its `data-placeholder-<lang>` literal, each only when the element carries both languages' attributes and that literal is non-empty; all else is kept |
| LanguageManager.RenderElementKeepsLiterals | js/script.js:223-238 | rendering keeps an element's bindings and every language's literals |
| LanguageManager.RenderMeta | js/script.js:240-247 | the description's `content` reads back as its `data-<lang>` literal when that literal is non-empty, and the description is untouched otherwise; other attributes and the text are kept (`RenderMetaKeepsLiterals` is its partner) |
| LanguageManager.RenderTitle | js/script.js:249-256 | the title's text becomes its `data-<lang>` literal when that literal is non-empty and is kept otherwise; its attributes are kept (`RenderRestores` restores it) |
| LanguageManager.RenderMetaKeepsLiterals | js/script.js:240-248 | rendering the description keeps its literals, and a later render with a literal overrides an earlier one |
| LanguageManager.Render | js/script.js:218-262 | the root `lang` reads back and every other root attribute is kept; each element follows its literals as above; the description's `content` becomes its literal when it has one, it is otherwise untouched, and its other attributes are kept; the title's text becomes its literal when it has one and is kept otherwise; the indicator shows the code upper-cased; the theme icon is untouched |
| LanguageManager.SetLanguage | js/script.js:218-271 | any string becomes the current language; the document is re-rendered for it; a working store gets it under `language`, every other key and the health kept; a failing store is untouched; a `languageChanged` notice carrying it is appended last |
| LanguageManager.Next | js/script.js:273-276 | the toggle target is always `en` or `th`, and `th` exactly when the language was `en` |
| LanguageManager.Toggle | js/script.js:273-276 | the new language is `Next` of the old (`th` from `en`, `en` from anything else), so it is one of the two and differs from before; the theme and category are kept; the document is rendered for it, a working store reads it back, a failing store is untouched, and the notice carries it (`LanguageManager.ToggleTwice` is its partner) |
| LanguageManager.Init | js/script.js:206-209 | start-up is exactly `SetLanguage` of the value stored under `language` when the store is readable and holds one, and of `en` in every other case: it renders, persists and notifies as `setLanguage` does |
| LanguageManager.NextInvolution | js/script.js:273-276 | on the two languages, toggling is an involution |
| LanguageManager.ToggleTwice | js/script.js:218-276 | two toggles from `en`/`th` restore the language and append two notices |
| LanguageManager.InitDefaultsToEnglish | js/script.js:206-220 | with nothing stored or an unreadable store, start-up gives `en` and the root `lang` is `en` |
| LanguageManager.InitFromStoredThai | js/script.js:206-262 | with `th` stored, start-up shows every bound element's `data-th` literal and the indicator reads `TH` |
| LanguageManager.RenderIdempotent | js/script.js:218-262 | applying a language twice renders the same document as once |
| LanguageManager.RenderRestores | js/script.js:218-262 | switching away and back restores the document when every bound part has a literal for the language |
| LanguageManager.RenderElementRestores | js/script.js:223-238 | switching one element away and back restores it when it has a literal for the language in every bound slot |
| LanguageManager.HomeRoundTrip | js/script.js:223-229 | an element with `data-en="Home"` and a Thai literal shows the Thai text under `th` and `Home` again after switching back |
| LanguageManager.UpperCaseCodeReadsSameLiterals | js/script.js:223-238 | because attribute names are case-insensitive, `TH` renders the elements exactly as `th` does |
| ProductManager.CountShown | js/script.js:441-444 | the number of visible cards never exceeds the number of cards |
| ProductManager.CountShownAll | js/script.js:408-420 | when every card is shown, the count is the number of cards |
| ProductManager.ResultsText | js/script.js:446-457 | the results line is a prefix and a suffix that depend only on the language and the category, with the count's decimal numeral between them (`ResultsTextDeterminesCount` and `Text.ParseDecimalOfDecimal` recover the count from it) |
| ProductManager.ResultsTextDeterminesCount | js/script.js:446-459 | two different counts never give the same results line |
| ProductManager.ResultsTextAllEnglish | js/script.js:449-451 | twelve products under `all` in English read "Showing all 12 products" |
| ProductManager.ResultsTextClubsEnglish | js/script.js:453-456 | three clubs in English read "Showing 3 clubs", the category name lower-cased |
| ProductManager.ResultsTextBallsThai | js/script.js:453-457 | two balls in Thai read with the Thai category name before the count |
| ProductManager.ResultsTextOtherLanguage | js/script.js:446-451 | any language other than `en` gets the Thai sentence |
| ProductManager.UpdateResultsCount | js/script.js:436-460 | nothing changes without the results element; otherwise it shows the line for the given count, or for the number of visible cards when no count is given |
| ProductManager.FilterByCategory | js/script.js:391-434 | the category is recorded; exactly the buttons with that `data-category` are active; a card is shown iff the category is `all` or its own; the visible count is the number of shown cards, at most all and all for `all`; the results line reports it; the URL parameter is deleted for `all` and set otherwise |
| NavigationManager.ToggleMobileMenu | js/script.js:313-321 | when both hamburger and menu exist each flips its flag; otherwise nothing changes |
| NavigationManager.CloseMobileMenu | js/script.js:323-331 | when both exist both flags are cleared; otherwise nothing changes |
| NavigationManager.ToggleTwice | js/script.js:313-321 | toggling twice restores both flags |
| NavigationManager.CloseIdempotent | js/script.js:313-331 | closing is idempotent, and close-toggle-close equals close |
| NavigationManager.Split | js/script.js:334 | `split` gives at least one piece, and a single piece (the whole string) exactly when there is no separator |
| NavigationManager.LastPiece | js/script.js:334 | the popped piece has no separator, ends the path, and is the whole path or follows a separator |
| NavigationManager.CurrentPage | js/script.js:334 | the current page is never empty and contains no `/` |
| NavigationManager.DirectoryPathIsIndex | js/script.js:334 | a path ending in `/` names `index.html` |
| NavigationManager.FilePathIsFileName | js/script.js:334 | a path ending in a file name names that file |
| NavigationManager.UpdateActiveNavigation | js/script.js:333-345 | a link is active exactly when its `href` equals the current page, so the `currentPage === ''` alternative never applies; hrefs and menu flags are kept |
| NavigationManager.UpdateActiveNavigationIdempotent | js/script.js:333-345 | highlighting twice equals highlighting once |
| ContactManager.MatchesEmail | js/script.js:543-544 | the direct e-mail test accepts exactly the strings of the form run, `@`, run, `.`, run, where a run is one or more characters that are neither white space nor `@` |
| ContactManager.MatchesPhone | js/script.js:555-556 | the direct phone test accepts exactly an optional `+` followed by ten or more digits, white space, `-`, `(` or `)` |
| ContactManager.ProblemMessage | js/script.js:535-561 | every error message, English or Thai, is non-empty |
| ContactManager.ValidateField | js/script.js:529-566 | a field is valid exactly when, on its trimmed value, required implies non-empty and a non-empty `email`/`tel` value has the e-mail/phone shape; each failure is reported exactly when its rule is broken |
| ContactManager.ShowFieldError | js/script.js:568-590 | the old error goes; a new one in the current language appears exactly for an invalid verdict; the value is untouched |
| ContactManager.ClearFieldError | js/script.js:592-601 | the error goes and nothing else changes |
| ContactManager.Check | js/script.js:529-590 | after validation a field shows an error exactly when it is not acceptable |
| ContactManager.EmptyOptionalFieldIsValid | js/script.js:535-561 | an empty field without `required` is valid, whatever its type |
| ContactManager.ValidateIgnoresPadding | js/script.js:530 | surrounding white space never changes the verdict |
| ContactManager.ValidEmailExample | js/script.js:543-551 | `a@b.co` is a valid e-mail |
| ContactManager.InvalidEmailExample | js/script.js:543-551 | `a@b@c.d` is rejected with "Please enter a valid email address" in English |
| ContactManager.ValidPhoneExample | js/script.js:554-562 | `+66 81-234 5678` is a valid phone number |
| ContactManager.ShortPhoneExample | js/script.js:554-562 | nine digits are rejected, with the Thai phone message under Thai |
| ContactManager.FormData | js/script.js:604-629 | every named field's name is a key of the submitted data, and there is at most one entry per field (`FormDataLookup` gives each key's value) |
| ContactManager.FormDataLookup | js/script.js:604-628 | a name is in the submitted data exactly when some field has it, with the value of the last such field |
| ContactManager.AllPassIff | js/script.js:608-615 | the validity flag survives the pass exactly when every field lets the form through |
| ContactManager.AllRequiredValid | js/script.js:608-615 | every field letting the form through is no required field being unacceptable |
| ContactManager.ValidateAll | js/script.js:608-615 | every required field is validated and shows its own error with no short-circuit, other fields are untouched, and the flag records whether all passed |
| ContactManager.HandleFormSubmission | js/script.js:603-633 | the form is rejected with the "correct the errors" notice exactly when some required field is not acceptable; otherwise the collected form data goes on to submission |
| GreenSwingApp.Init | js/script.js:846-866 | a second call changes nothing; the first applies the stored theme, then the stored language, then the link highlighting, and sets the flag |
| GreenSwingApp.InitOnce | js/script.js:846-866 | initialising twice equals initialising once, with no second round of notifications |
| GreenSwingApp.FreshStart | js/script.js:108-111 | with an empty store the page starts light and in English, announcing `themeChanged` with `light` and then `languageChanged` with `en` |
| Text.Trim | js/script.js:530 | `trim` leaves an infix with white space only around it and none at its ends; it is empty exactly when the string is all white space |
| Text.ParseDecimalOfDecimal | js/script.js:449-457 | the numeral interpolated into the results line reads back as the count |

## Left out

- Timers and animation are left out. This covers `Utils.debounce`, `Utils.animate` and `Utils.toggle`, and the delays in `loadMoreProducts`, `submitForm`, `showNotification` and `handleURLParameters`. A card's `shown` flag is the state it ends in once the 300 ms hide delay has passed.
- ProductManager.UpdateResultsCount: when no count is given it counts the cards whose `shown` flag is set. The script counts cards without an inline `display: none`, which a card hidden less than 300 ms ago does not yet have.
- `PerformanceManager`, `AnalyticsManager`, `window.open`, `URL`/`history.replaceState` and `URLSearchParams` parsing are left out, because they are browser services or console output. Only the decision to set or delete the `category` parameter is kept.
- The event-listener wiring in the managers' `init` functions is left out: clicks, `blur` and `input` listeners, and the products- and contact-page `init` checks. The handlers they call are modelled.
- `GreenSwingApp.init` waits for `DOMContentLoaded`, catches errors, dispatches `appReady` and also starts `ProductManager`, `ContactManager`, `PerformanceManager` and `AnalyticsManager`. Only the theme, language and navigation start-up and the flag are modelled.
- `console.warn` in `Storage` is left out. A failing call's only visible effect is the default value or the unchanged store.
- JSON is the identity on values. The script could store `null` or non-string JSON under `theme`/`language`, but the model stores only strings.
- `Text.Upper` and `Text.Lower` map ASCII letters only. `toUpperCase`/`toLowerCase` also map other scripts. The model assumes the strings they meet (language codes, attribute names, category names) have no cased letters outside ASCII. `setLanguage` accepts any string, and categories come from `data-category` or the URL, so a code with such letters would be upper-cased differently by the script.
- LanguageManager.Translate: `translate` looks up both the language and the key through the prototype chain in JavaScript, and the model does not. A key such as `constructor` would find a function. A language such as `constructor` would find `Object`, so that `translate("name")` gives `"Object"`.
- LanguageManager.TranslateUnknownLanguage: holds only for language names that are not properties of `Object.prototype`, for the same reason.
- A filter button without `data-category` calls the filter with `null`. The model's category is always a string.
- `showFieldError` looks for the field's `.form-group`. The model assumes every validated field sits in a `.form-group` of its own and folds the red border into the error. A field outside any `.form-group` would make the script throw.
- ContactManager.ShowFieldError: the script removes the first `.field-error` in the field's `.form-group` (js/script.js:569-574), which belongs to another field when the group holds two. The model keeps one error per field and assumes each `.form-group` holds a single validated field.
- ContactManager.ClearFieldError: under the same assumption. In a shared `.form-group` the script (js/script.js:593-598) clears the group's first error, which may be another field's.
- ContactManager.ValidateAll: under the same assumption. With two required fields in one `.form-group`, validating the second removes the first one's error, so "each required field shows its own error" holds only for one validated field per group.
- `new FormData(form)` skips disabled, unnamed and unchecked controls and reads files and selects in their own way. The model takes every named field's value.
- `Dom.Document` keeps the description `meta` and the `title` apart from the list of bound elements. The model assumes neither carries both `data-en` and `data-th`. `querySelectorAll` (js/script.js:223) scans the head too, so a title or description that did would first be rendered as a bound element (its text replaced) and then again at js/script.js:240-256.
- Nesting is not modelled: the document is a flat list of elements. Setting `textContent` (js/script.js:227) replaces an element's children, so a bound element inside another bound element, or a `.lang-text` or `.theme-icon` inside one, would be removed by the script, while the model renders each of them independently.
- GreenSwingApp.InitOnce: holds for calls that do not overlap. `init` tests the flag at js/script.js:847, may `await` the `DOMContentLoaded` event at js/script.js:852, and sets the flag only at js/script.js:866, so a second call made during the wait would run the start-up again. The model treats `init` as one atomic step.

## Behaviour worth noting

- **Stored preferences are applied unchecked.** js/script.js:110-111 and js/script.js:208-209 apply any stored string without checking it against `light`/`dark` or `en`/`th`. The model does the same (`ThemeManager.InitKeepsUnknownTheme`).
- **A failed write is ignored.** `Storage.set` (js/script.js:77-83) catches the error, and `setTheme` (js/script.js:131) and `setLanguage` (js/script.js:265) carry on. On a full store the page therefore shows a preference the store does not hold (`Storage.SetOnFullStoreKeepsOldValue`, `ThemeManager.SetTheme`).
- **Dead highlighting test.** The `currentPage === ''` alternative of the highlighting test (js/script.js:333-345) can never apply, because the current page is never empty (`NavigationManager.UpdateActiveNavigation`).

=== FILE: app.dfy ===
/** `GreenSwingApp.init` (js/script.js:846-866), reduced to the start-up of
    the managers in this model, in the order the script runs them, and the
    once-only `initialized` flag. */
module GreenSwingApp {
  import Storage
  import opened AppState
  import ThemeManager
  import LanguageManager
  import NavigationManager

  /** The application: whether `init` has completed, the preference world,
      the navigation bar, and `window.location.pathname`. */
  datatype App = App(initialized: bool, world: World, nav: NavigationManager.NavBar, path: string)

  /** `init()`: a second call does nothing. The first applies the stored
      theme, then the stored language, then highlights the current page's
      links, and marks the application initialised. */
  function Init(app: App): (a: App)
    ensures a.initialized
    ensures app.initialized ==> a == app
    ensures !app.initialized ==>
              a.world == LanguageManager.Init(ThemeManager.Init(app.world))
              && a.nav == NavigationManager.UpdateActiveNavigation(app.nav, app.path)
              && a.path == app.path
  {
    if app.initialized then app
    else
      var w := ThemeManager.Init(app.world);
      var w' := LanguageManager.Init(w);
      var nav := NavigationManager.UpdateActiveNavigation(app.nav, app.path);
      app.(initialized := true, world := w', nav := nav)
  }

  /** Initialising twice is initialising once: no second round of
      notifications. */
  lemma InitOnce(app: App)
    ensures Init(Init(app)) == Init(app)
    ensures |Init(Init(app)).world.notices| == |Init(app).world.notices|
  {
  }

  /** A first visit, with nothing stored: the page starts light and in
      English, announcing `themeChanged` with `light` and then
      `languageChanged` with `en`. */
  lemma FreshStart(app: App)
    requires !app.initialized
    requires app.world.store.entries == map[]
    ensures Init(app).world.state.theme == "light"
    ensures Init(app).world.state.lang == "en"
    ensures Init(app).world.state.category == app.world.state.category
    ensures var n := app.world.notices;
            var n' := Init(app).world.notices;
            && |n'| == |n| + 2
            && n'[|n|].event == ThemeChanged("light")
            && n'[|n| + 1].event == LanguageChanged("en")
  {
    var w := ThemeManager.Init(app.world);
    ThemeManager.InitDefaultsToLight(app.world);
    assert LanguageManager.Key !in w.store.entries || w.store.health == Storage.Unavailable;
    LanguageManager.InitDefaultsToEnglish(w);
  }

  /** The global `AppState` object's starting values (`currentLang: 'en'`,
      `currentTheme: 'light'`, `currentCategory: 'all'`) are what a first
      visit with nothing stored ends up with: `init` changes nothing in
      them. */
  lemma FreshStartKeepsInitialState(app: App)
    requires !app.initialized
    requires app.world.store.entries == map[]
    requires app.world.state == AppState.Initial()
    ensures Init(app).world.state == AppState.Initial()
  {
    FreshStart(app);
  }
}

=== FILE: app_state.dfy ===
/** The global `AppState` (js/script.js:4-8) together with everything the
    preference setters change: the document, the preference store, and the
    notifications dispatched on the document. */
module AppState {
  import Dom
  import Storage

  /** The in-memory preferences. Any string is accepted: the setters do not
      check that a value belongs to the two the page knows. */
  datatype State = State(lang: string, theme: string, category: string)

  /** The values the script starts with. */
  function Initial(): (s: State)
    ensures s.lang == "en" && s.theme == "light" && s.category == "all"
  {
    State("en", "light", "all")
  }

  /** The `CustomEvent`s the managers dispatch, with their `detail`. */
  datatype Event = ThemeChanged(theme: string) | LanguageChanged(language: string)

  /** What a listener running synchronously inside `dispatchEvent` can observe. */
  datatype Snapshot = Snapshot(state: State, doc: Dom.Document, store: Storage.Store<string>)

  datatype Notice = Notice(event: Event, seen: Snapshot)

  /** The world the handlers run in. `notices` lists every dispatched
      notification in order, each with what was observable when it fired. */
  datatype World = World(
    state: State,
    doc: Dom.Document,
    store: Storage.Store<string>,
    notices: seq<Notice>)

  function Observe(w: World): Snapshot {
    Snapshot(w.state, w.doc, w.store)
  }

  /** The last two steps shared by `setTheme` and `setLanguage`, once the
      in-memory value and the document are updated: persist the value under
      `key`, then dispatch `e`. The listener sees the value already stored. */
  function Publish(w: World, key: string, value: string, e: Event): (w': World)
    ensures w'.state == w.state && w'.doc == w.doc
    ensures w.store.health == Storage.Healthy ==> key in w'.store.entries && w'.store.entries[key] == Storage.Json(value)
    ensures w.store.health == Storage.Healthy ==>
              w'.store.entries == w.store.entries[key := Storage.Json(value)] && w'.store.health == w.store.health
    ensures w.store.health != Storage.Healthy ==> w'.store == w.store
    ensures w'.notices == w.notices + [Notice(e, Observe(w'))]
  {
    var persisted := w.(store := Storage.Set(w.store, key, value));
    persisted.(notices := persisted.notices + [Notice(e, Observe(persisted))])
  }

  /** The latest notification fired after every other change: what it saw is
      what the world is now. */
  predicate NotifiedLast(w: World) {
    |w.notices| > 0 && w.notices[|w.notices| - 1].seen == Observe(w)
  }
}

=== FILE: common.dfy ===
/** Small shared vocabulary: an optional value, standing for a DOM lookup
    that may return `null` or an attribute that may be absent. */
module Common {

  datatype Option<+T> = None | Some(value: T) {

    /** The value, or `default` when there is none. */
    function GetOr(default: T): T {
      match this
      case Some(v) => v
      case None => default
    }
  }
}

=== FILE: contact.dfy ===
/** `ContactManager.validateField` and `handleFormSubmission`
    (js/script.js:529-633): the three validation rules, the error a field
    shows, and the decision to reject the form or hand its data on. */
module ContactManager {
  import opened Common
  import Text

  /** A form control: its `name`, its `type` (`email`, `tel`, `text`, ...),
      whether it has the `required` attribute, its current value, and the
      error message shown under it, if any. */
  datatype Field = Field(
    name: Option<string>,
    kind: string,
    required: bool,
    value: string,
    error: Option<string>)

  /** The rule a field broke, which picks the message it shows. */
  datatype Problem = Missing | BadEmail | BadPhone

  /** What `validateField` computes before showing it: valid, or invalid
      with the last rule that failed. */
  datatype Verdict = Valid | Invalid(problem: Problem)

  /** The form's fate: the error notification, or the collected data handed
      to `submitForm`. */
  datatype Submission = Rejected(notice: string) | Submitted(data: map<string, string>)

  // ---- messages ----

  /** English when the current language is `en`, Thai otherwise. */
  function Message(lang: string, english: string, thai: string): string {
    if lang == "en" then english else thai
  }

  /** The error text for a broken rule; never empty, so an invalid field
      always shows one. */
  function ProblemMessage(lang: string, p: Problem): (m: string)
    ensures m != ""
  {
    match p
    case Missing => Message(lang, "This field is required", "ฟิลด์นี้จำเป็น")
    case BadEmail => Message(lang, "Please enter a valid email address", "กรุณากรอกที่อยู่อีเมลที่ถูกต้อง")
    case BadPhone => Message(lang, "Please enter a valid phone number", "กรุณากรอกหมายเลขโทรศัพท์ที่ถูกต้อง")
  }

  function CorrectErrorsMessage(lang: string): (m: string)
    ensures m != ""
  {
    Message(lang, "Please correct the errors above", "กรุณาแก้ไขข้อผิดพลาดข้างต้น")
  }

  // ---- the e-mail pattern /^[^\s@]+@[^\s@]+\.[^\s@]+$/ ----

  /** A character of `[^\s@]`. */
  predicate RunChar(c: char) {
    !Text.IsSpace(c) && c != '@'
  }

  /** `[^\s@]+`: one or more such characters. */
  predicate Run(s: string) {
    |s| > 0 && forall i :: 0 <= i < |s| ==> RunChar(s[i])
  }

  /** What the pattern matches: a run, `@`, a run, `.`, a run. */
  ghost predicate EmailShape(s: string) {
    exists at, dot :: 0 < at && at + 1 < dot && dot + 1 < |s|
                      && s[at] == '@' && s[dot] == '.'
                      && Run(s[..at]) && Run(s[at + 1..dot]) && Run(s[dot + 1..])
  }

  /** The first position of `c` in `s`. */
  function IndexOf(s: string, c: char): (r: Option<nat>)
    ensures r.Some? ==> r.value < |s| && s[r.value] == c
    ensures r.Some? ==> forall k :: 0 <= k < r.value ==> s[k] != c
    ensures r.None? ==> forall k :: 0 <= k < |s| ==> s[k] != c
  {
    if s == [] then None
    else if s[0] == c then Some(0)
    else match IndexOf(s[1..], c)
         case Some(i) => Some(i + 1)
         case None => None
  }

  /** The direct test at the first `@`, found at `at`: a run before it, and
      a run after it with a `.` strictly inside. */
  predicate EmailParts(s: string, at: nat)
    requires at < |s|
  {
    var domain := s[at + 1..];
    Run(s[..at]) && Run(domain) && |domain| >= 3 && '.' in domain[1..|domain| - 1]
  }

  /** The e-mail pattern, tested directly: split at the first `@` and check
      the two sides. It accepts exactly what the pattern matches. */
  function MatchesEmail(s: string): (r: bool)
    ensures r <==> EmailShape(s)
  {
    EmailShapeHasParts(s);
    match IndexOf(s, '@')
    case None => false
    case Some(at) =>
      EmailPartsAreShape(s, at);
      EmailParts(s, at)
  }

  /** Passing the direct test gives a match of the pattern. */
  lemma EmailPartsAreShape(s: string, at: nat)
    requires IndexOf(s, '@') == Some(at)
    ensures EmailParts(s, at) ==> EmailShape(s)
  {
    if EmailParts(s, at) {
      var domain := s[at + 1..];
      var inner := domain[1..|domain| - 1];
      var k :| 0 <= k < |inner| && inner[k] == '.';
      var dot := at + 2 + k;
      assert s[dot] == '.';
      assert s[at + 1..dot] == domain[..k + 1];
      assert s[dot + 1..] == domain[k + 2..];
      assert Run(s[at + 1..dot]);
      assert Run(s[dot + 1..]);
    }
  }

  /** A match of the pattern passes the direct test: the `@` of the pattern
      is the first one, and the domain part is one run around the dot. */
  lemma ShapeGivesParts(s: string, at: nat, dot: nat)
    requires 0 < at && at + 1 < dot && dot + 1 < |s|
    requires s[at] == '@' && s[dot] == '.'
    requires Run(s[..at]) && Run(s[at + 1..dot]) && Run(s[dot + 1..])
    ensures IndexOf(s, '@') == Some(at) && EmailParts(s, at)
  {
    assert forall k :: 0 <= k < at ==> s[k] == s[..at][k];
    assert IndexOf(s, '@') == Some(at);
    var domain := s[at + 1..];
    forall i | 0 <= i < |domain|
      ensures RunChar(domain[i])
    {
      if at + 1 + i < dot {
        assert domain[i] == s[at + 1..dot][i];
      } else if at + 1 + i > dot {
        assert domain[i] == s[dot + 1..][at + i - dot];
      }
    }
    assert domain[1..|domain| - 1][dot - at - 2] == '.';
  }

  /** Any match of the pattern passes the direct test at its first `@`. */
  lemma EmailShapeHasParts(s: string)
    ensures EmailShape(s) ==> IndexOf(s, '@').Some? && EmailParts(s, IndexOf(s, '@').value)
  {
    if EmailShape(s) {
      var at: nat, dot: nat :| 0 < at && at + 1 < dot && dot + 1 < |s|
                               && s[at] == '@' && s[dot] == '.'
                               && Run(s[..at]) && Run(s[at + 1..dot]) && Run(s[dot + 1..]);
      ShapeGivesParts(s, at, dot);
    }
  }

  // ---- the phone pattern /^[\+]?[0-9\s\-\(\)]{10,}$/ ----

  /** A character of `[0-9\s\-\(\)]`. */
  predicate PhoneChar(c: char) {
    Text.IsDigit(c) || Text.IsSpace(c) || c == '-' || c == '(' || c == ')'
  }

  /** `[0-9\s\-\(\)]{10,}`: ten or more such characters. */
  predicate PhoneBody(s: string) {
    |s| >= 10 && forall i :: 0 <= i < |s| ==> PhoneChar(s[i])
  }

  /** What the pattern matches: an optional `+`, then the body. */
  ghost predicate PhoneShape(s: string) {
    PhoneBody(s) || (|s| > 0 && s[0] == '+' && PhoneBody(s[1..]))
  }

  /** The phone pattern, tested directly: drop a leading `+`, test the rest.
      It accepts exactly what the pattern matches (a `+` is not a body
      character, so dropping it is never wrong). */
  function MatchesPhone(s: string): (r: bool)
    ensures r <==> PhoneShape(s)
  {
    if |s| > 0 && s[0] == '+' then
      assert !PhoneChar(s[0]);
      PhoneBody(s[1..])
    else
      PhoneBody(s)
  }

  // ---- validation ----

  /** The reference meaning of the three rules on the trimmed value: a
      required field is not empty; a non-empty `email` field matches the
      e-mail pattern; a non-empty `tel` field matches the phone pattern. */
  ghost predicate Acceptable(f: Field) {
    var value := Text.Trim(f.value);
    && (f.required ==> value != "")
    && (f.kind == "email" && value != "" ==> EmailShape(value))
    && (f.kind == "tel" && value != "" ==> PhoneShape(value))
  }

  /** `validateField(field)`'s verdict. The rules run in order on the
      trimmed value, a failing one overwriting the problem found before it.
      The field is valid exactly when it is acceptable, and each problem is
      reported exactly when its rule is broken: `Missing` for an empty
      required field, `BadEmail` for a non-empty `email` field off the
      pattern, `BadPhone` likewise for `tel`. */
  function ValidateField(f: Field): (v: Verdict)
    ensures v.Valid? <==> Acceptable(f)
    ensures v == Invalid(Missing) <==> f.required && Text.Trim(f.value) == ""
    ensures v == Invalid(BadEmail) <==>
              f.kind == "email" && Text.Trim(f.value) != "" && !EmailShape(Text.Trim(f.value))
    ensures v == Invalid(BadPhone) <==>
              f.kind == "tel" && Text.Trim(f.value) != "" && !PhoneShape(Text.Trim(f.value))
  {
    var value := Text.Trim(f.value);
    var afterRequired := if f.required && value == "" then Invalid(Missing) else Valid;
    var afterEmail :=
      if f.kind == "email" && value != "" && !MatchesEmail(value) then Invalid(BadEmail) else afterRequired;
    if f.kind == "tel" && value != "" && !MatchesPhone(value) then Invalid(BadPhone) else afterEmail
  }

  /** `showFieldError`: the old error goes; a new one, in the current
      language, appears exactly when the verdict is invalid. The value is
      untouched. */
  function ShowFieldError(lang: string, f: Field, v: Verdict): (f': Field)
    ensures f'.error.Some? <==> v.Invalid?
    ensures v.Invalid? ==> f'.error == Some(ProblemMessage(lang, v.problem))
    ensures f' == f.(error := f'.error)
  {
    var message := if v.Invalid? then ProblemMessage(lang, v.problem) else "";
    f.(error := if v.Invalid? && message != "" then Some(message) else None)
  }

  /** `clearFieldError`, run on every keystroke: the error goes. */
  function ClearFieldError(f: Field): (f': Field)
    ensures f'.error.None?
    ensures f' == f.(error := f'.error)
  {
    f.(error := None)
  }

  /** What validating a field leaves on screen: an error exactly when the
      field is not acceptable. */
  function Check(lang: string, f: Field): (f': Field)
    ensures f'.error.Some? <==> !Acceptable(f)
    ensures f' == f.(error := f'.error)
  {
    ShowFieldError(lang, f, ValidateField(f))
  }

  /** An empty field that is not required is valid, whatever its type. */
  lemma EmptyOptionalFieldIsValid(f: Field)
    requires !f.required && Text.Trim(f.value) == ""
    ensures ValidateField(f).Valid?
  {
  }

  /** Validation sees only the trimmed value: padding never changes the
      verdict. */
  lemma ValidateIgnoresPadding(f: Field)
    ensures ValidateField(f) == ValidateField(f.(value := Text.Trim(f.value)))
  {
    Text.TrimIdempotent(f.value);
    SameTrimmedValueSameVerdict(f, f.(value := Text.Trim(f.value)));
  }

  /** The verdict depends on the type, the `required` flag and the trimmed
      value only. */
  lemma SameTrimmedValueSameVerdict(f: Field, g: Field)
    requires f.kind == g.kind && f.required == g.required
    requires Text.Trim(f.value) == Text.Trim(g.value)
    ensures ValidateField(f) == ValidateField(g)
  {
  }

  /** Example: a plain address is a valid e-mail. */
  lemma ValidEmailExample()
    ensures ValidateField(Field(None, "email", true, "a@b.co", None)).Valid?
  {
    var f := Field(None, "email", true, "a@b.co", None);
    Text.TrimUnpadded(f.value);
    PlainAddressMatches();
    PassingEmailIsValid(f);
  }

  /** A non-empty, unpadded `email` value that passes the direct test makes
      the field valid. */
  lemma PassingEmailIsValid(f: Field)
    requires f.kind == "email" && f.value != "" && Text.Trim(f.value) == f.value
    requires MatchesEmail(f.value)
    ensures ValidateField(f) == Valid
  {
  }

  /** The verdict is `Valid` once the field is known to be acceptable. */
  lemma AcceptableIsValid(f: Field)
    requires Acceptable(f)
    ensures ValidateField(f) == Valid
  {
  }

  lemma PlainAddressMatches()
    ensures MatchesEmail("a@b.co")
  {
    var s := "a@b.co";
    assert IndexOf(s, '@') == Some(1);
    assert EmailParts(s, 1) by {
      assert Run(s[..1]);
      assert Run(s[2..]);
      assert s[2..][1..3] == ".c";
    }
  }

  /** Example: an address with a second `@` is rejected, and in English the
      field says so. */
  lemma InvalidEmailExample()
    ensures ValidateField(Field(None, "email", true, "a@b@c.d", None)) == Invalid(BadEmail)
    ensures Check("en", Field(None, "email", true, "a@b@c.d", None)).error
            == Some("Please enter a valid email address")
  {
    TwoAtsVerdict();
    TwoAtsMessage();
  }

  lemma TwoAtsVerdict()
    ensures ValidateField(Field(None, "email", true, "a@b@c.d", None)) == Invalid(BadEmail)
  {
    TwoAts();
    FailingEmailIsBadEmail(Field(None, "email", true, "a@b@c.d", None));
  }

  lemma TwoAtsMessage()
    ensures Check("en", Field(None, "email", true, "a@b@c.d", None)).error
            == Some("Please enter a valid email address")
  {
    TwoAtsVerdict();
    InvalidShowsMessage("en", Field(None, "email", true, "a@b@c.d", None), BadEmail);
    EnglishEmailMessage();
  }

  /** The value with two `@` is unpadded and fails the direct e-mail test. */
  lemma TwoAts()
    ensures Text.Trim("a@b@c.d") == "a@b@c.d"
    ensures !MatchesEmail("a@b@c.d")
  {
    TwoAtsUnpadded();
    TwoAtsFail();
  }

  lemma TwoAtsUnpadded()
    ensures Text.Trim("a@b@c.d") == "a@b@c.d"
  {
    var s := "a@b@c.d";
    assert s[0] == 'a' && s[6] == 'd';
    Text.TrimUnpadded(s);
  }

  lemma TwoAtsFail()
    ensures !MatchesEmail("a@b@c.d")
  {
    var s := "a@b@c.d";
    assert IndexOf(s, '@') == Some(1);
    assert !RunChar(s[2..][1]);
  }

  lemma EnglishEmailMessage()
    ensures ProblemMessage("en", BadEmail) == "Please enter a valid email address"
  {
  }

  /** A field found invalid shows the message for its problem. */
  lemma InvalidShowsMessage(lang: string, f: Field, p: Problem)
    requires ValidateField(f) == Invalid(p)
    ensures Check(lang, f).error == Some(ProblemMessage(lang, p))
  {
  }

  /** A non-empty, unpadded `email` value that fails the direct test is
      reported as a bad e-mail address. */
  lemma FailingEmailIsBadEmail(f: Field)
    requires f.kind == "email" && f.value != "" && Text.Trim(f.value) == f.value
    requires !MatchesEmail(f.value)
    ensures ValidateField(f) == Invalid(BadEmail)
  {
  }

  /** Example: an international number with a `+`, spaces and a dash is a
      valid phone number. */
  lemma ValidPhoneExample()
    ensures ValidateField(Field(None, "tel", false, "+66 81-234 5678", None)).Valid?
  {
    var f := Field(None, "tel", false, "+66 81-234 5678", None);
    assert Acceptable(f) by {
      var s := f.value;
      Text.TrimUnpadded(s);
      assert s[1..] == "66 81-234 5678";
      ExamplePhoneBody();
      assert PhoneShape(s);
    }
    AcceptableIsValid(f);
  }

  /** The example's digits, spaces and dash, after the `+`. */
  lemma ExamplePhoneBody()
    ensures PhoneBody("66 81-234 5678")
  {
    var body := "66 81-234 5678";
    assert PhoneChar(body[0]) && PhoneChar(body[1]) && PhoneChar(body[2]) && PhoneChar(body[3]);
    assert PhoneChar(body[4]) && PhoneChar(body[5]) && PhoneChar(body[6]) && PhoneChar(body[7]);
    assert PhoneChar(body[8]) && PhoneChar(body[9]) && PhoneChar(body[10]) && PhoneChar(body[11]);
    assert PhoneChar(body[12]) && PhoneChar(body[13]);
  }

  /** Example: nine digits are one too few, and in Thai the field says so. */
  lemma ShortPhoneExample()
    ensures ValidateField(Field(None, "tel", false, "081234567", None)) == Invalid(BadPhone)
    ensures Check("th", Field(None, "tel", false, "081234567", None)).error
            == Some("กรุณากรอกหมายเลขโทรศัพท์ที่ถูกต้อง")
  {
    ShortPhoneVerdict();
    ShortPhoneMessage();
  }

  lemma ShortPhoneVerdict()
    ensures ValidateField(Field(None, "tel", false, "081234567", None)) == Invalid(BadPhone)
  {
    NineDigits();
    FailingPhoneIsBadPhone(Field(None, "tel", false, "081234567", None));
  }

  lemma ShortPhoneMessage()
    ensures Check("th", Field(None, "tel", false, "081234567", None)).error
            == Some("กรุณากรอกหมายเลขโทรศัพท์ที่ถูกต้อง")
  {
    ShortPhoneVerdict();
    InvalidShowsMessage("th", Field(None, "tel", false, "081234567", None), BadPhone);
    ThaiPhoneMessage();
  }

  /** The nine-digit value is unpadded and fails the direct phone test. */
  lemma NineDigits()
    ensures Text.Trim("081234567") == "081234567"
    ensures !MatchesPhone("081234567")
  {
    NineDigitsUnpadded();
    NineDigitsTooShort();
  }

  lemma NineDigitsUnpadded()
    ensures Text.Trim("081234567") == "081234567"
  {
    var s := "081234567";
    assert s[0] == '0' && s[8] == '7';
    Text.TrimUnpadded(s);
  }

  lemma NineDigitsTooShort()
    ensures !MatchesPhone("081234567")
  {
    var s := "081234567";
    assert |s| == 9 && s[0] != '+';
  }

  lemma ThaiPhoneMessage()
    ensures ProblemMessage("th", BadPhone) == "กรุณากรอกหมายเลขโทรศัพท์ที่ถูกต้อง"
  {
  }

  /** A non-empty, unpadded `tel` value that fails the direct test is
      reported as a bad phone number. */
  lemma FailingPhoneIsBadPhone(f: Field)
    requires f.kind == "tel" && f.value != "" && Text.Trim(f.value) == f.value
    requires !MatchesPhone(f.value)
    ensures ValidateField(f) == Invalid(BadPhone)
  {
  }

  // ---- submission ----

  /** `new FormData(form)` read into a plain object: every named field's
      value under its name, a later field winning over an earlier one. No
      named field is dropped, and there is at most one entry per field. */
  function FormData(fields: seq<Field>): (r: map<string, string>)
    ensures forall i :: 0 <= i < |fields| && fields[i].name.Some? ==> fields[i].name.value in r
    ensures |r| <= |fields|
  {
    if fields == [] then map[]
    else
      var init := fields[..|fields| - 1];
      assert forall i :: 0 <= i < |init| ==> init[i] == fields[i];
      var m := FormData(init);
      var f := fields[|fields| - 1];
      if f.name.Some? then m[f.name.value := f.value] else m
  }

  /** A name is in the data exactly when some field has it, and its value is
      that of the last field with that name. */
  lemma {:induction false} FormDataLookup(fields: seq<Field>, k: string)
    ensures k in FormData(fields) <==> exists i :: 0 <= i < |fields| && fields[i].name == Some(k)
    ensures k in FormData(fields) ==>
              exists i :: 0 <= i < |fields| && fields[i].name == Some(k)
                          && FormData(fields)[k] == fields[i].value
                          && forall j :: i < j < |fields| ==> fields[j].name != Some(k)
  {
    if fields != [] {
      var init := fields[..|fields| - 1];
      var last := fields[|fields| - 1];
      FormDataLookup(init, k);
      if last.name == Some(k) {
        assert fields[|fields| - 1].name == Some(k);
      } else if k in FormData(init) {
        var i :| 0 <= i < |init| && init[i].name == Some(k)
                 && FormData(init)[k] == init[i].value
                 && forall j :: i < j < |init| ==> init[j].name != Some(k);
        assert init[i] == fields[i];
        assert FormData(fields)[k] == FormData(init)[k];
        forall j | i < j < |fields|
          ensures fields[j].name != Some(k)
        {
          if j < |init| {
            assert init[j] == fields[j];
          }
        }
      }
    }
  }

  /** What one pass of the submit handler leaves of a field: a required
      field shows the outcome of its validation, any other is untouched. */
  function Checked(lang: string, f: Field): Field {
    if f.required then Check(lang, f) else f
  }

  /** For a required field, one step of the `forEach`: what it shows is
      `Checked`, and it lets the form through exactly when valid. */
  lemma RequiredStep(lang: string, f: Field)
    requires f.required
    ensures ShowFieldError(lang, f, ValidateField(f)) == Checked(lang, f)
    ensures Passes(f) == ValidateField(f).Valid?
  {
  }

  /** An optional field is skipped: it shows what it showed, and it lets
      the form through. */
  lemma OptionalStep(lang: string, f: Field)
    requires !f.required
    ensures Checked(lang, f) == f
    ensures Passes(f)
  {
  }

  /** Whether a field lets the form through: it is optional, or it passes. */
  const Passes: Field -> bool := (f: Field) => !f.required || ValidateField(f).Valid?

  /** A flag that starts true and is cleared by every field `pass` rejects,
      the fields being visited in order. */
  function AllPass(form: seq<Field>, pass: Field -> bool): bool {
    if form == [] then true
    else AllPass(form[..|form| - 1], pass) && pass(form[|form| - 1])
  }

  /** The flag survives exactly when `pass` accepts every field. */
  lemma {:induction false} AllPassIff(form: seq<Field>, pass: Field -> bool)
    ensures AllPass(form, pass) <==> forall j :: 0 <= j < |form| ==> pass(form[j])
  {
    if form != [] {
      var init := form[..|form| - 1];
      AllPassIff(init, pass);
      assert forall j :: 0 <= j < |init| ==> init[j] == form[j];
    }
  }

  /** Visiting one more field. */
  lemma AllPassStep(form: seq<Field>, i: nat, pass: Field -> bool)
    requires i < |form|
    ensures AllPass(form[..i + 1], pass) == (AllPass(form[..i], pass) && pass(form[i]))
  {
    assert form[..i + 1][..i] == form[..i];
  }

  /** Every field letting the form through is no required field being
      unacceptable. */
  lemma AllRequiredValid(form: seq<Field>)
    ensures (forall j :: 0 <= j < |form| ==> Passes(form[j]))
            <==> !exists j :: 0 <= j < |form| && form[j].required && !Acceptable(form[j])
  {
    if exists j :: 0 <= j < |form| && form[j].required && !Acceptable(form[j]) {
      var j :| 0 <= j < |form| && form[j].required && !Acceptable(form[j]);
      assert !Passes(form[j]);
    }
  }

  /** The `forEach` over the required fields in `handleFormSubmission`:
      every required field is validated and shows its own error, whatever
      the others do (no short-circuit); other fields are left alone. The flag
      ends true exactly when every field lets the form through. */
  method ValidateAll(lang: string, form: seq<Field>) returns (checked: seq<Field>, isFormValid: bool)
    ensures |checked| == |form|
    ensures forall i :: 0 <= i < |form| ==> checked[i] == Checked(lang, form[i])
    ensures isFormValid == AllPass(form, Passes)
  {
    isFormValid := true;
    checked := [];
    var i := 0;
    while i < |form|
      invariant 0 <= i <= |form|
      invariant |checked| == i
      invariant forall j :: 0 <= j < i ==> checked[j] == Checked(lang, form[j])
      invariant isFormValid == AllPass(form[..i], Passes)
    {
      var field := form[i];
      AllPassStep(form, i, Passes);
      if field.required {
        var verdict := ValidateField(field);
        RequiredStep(lang, field);
        checked := checked + [ShowFieldError(lang, field, verdict)];
        if verdict.Invalid? {
          isFormValid := false;
        }
      } else {
        OptionalStep(lang, field);
        checked := checked + [field];
      }
      assert checked[i] == Checked(lang, form[i]);
      i := i + 1;
    }
    assert form[..i] == form;
  }

  /** `handleFormSubmission(form)`. Every required field is validated and
      shows its own error (see `ValidateAll`). The form is rejected, with the
      "correct the errors" notice, exactly when some required field is not
      acceptable; otherwise its data goes on to be submitted. */
  method HandleFormSubmission(lang: string, form: seq<Field>) returns (checked: seq<Field>, outcome: Submission)
    ensures |checked| == |form|
    ensures forall i :: 0 <= i < |form| ==> checked[i] == Checked(lang, form[i])
    ensures outcome.Rejected? <==> exists i :: 0 <= i < |form| && form[i].required && !Acceptable(form[i])
    ensures outcome.Rejected? ==> outcome.notice == CorrectErrorsMessage(lang)
    ensures outcome.Submitted? ==> outcome.data == FormData(form)
  {
    var data := FormData(form);
    var isFormValid;
    checked, isFormValid := ValidateAll(lang, form);
    AllPassIff(form, Passes);
    AllRequiredValid(form);
    if !isFormValid {
      outcome := Rejected(CorrectErrorsMessage(lang));
    } else {
      outcome := Submitted(data);
    }
  }
}

=== FILE: dom.dfy ===
/** The part of the document the preference handlers touch, as plain records.

    An element is its attribute map and its text content. Attribute names are
    kept in ASCII lower case, as an HTML parser stores them, and `getAttribute`
    / `setAttribute` lower-case the name they are given before looking it up,
    as they do on an HTML document. */
module Dom {
  import opened Common
  import Text

  datatype Element = Element(attrs: map<string, string>, text: string)

  /** The elements `setLanguage` and `setTheme` reach. `elements` are the
      elements `querySelectorAll` finds, in document order, as a flat list;
      the description and the title are assumed not to be among them.
      `meta` is `meta[name="description"]`, `title` is `<title>`, and the
      two indicator texts are those of `.theme-icon` and `.lang-text`.
      `None` stands for an element the page does not have. */
  datatype Document = Document(
    root: Element,
    elements: seq<Element>,
    meta: Option<Element>,
    title: Option<Element>,
    themeIcon: Option<string>,
    langText: Option<string>)

  /** `element.getAttribute(name)`; `None` is `null`. */
  function GetAttribute(e: Element, name: string): (r: Option<string>)
    ensures r.Some? <==> Text.Lower(name) in e.attrs
    ensures r.Some? ==> r.value == e.attrs[Text.Lower(name)]
  {
    var key := Text.Lower(name);
    if key in e.attrs then Some(e.attrs[key]) else None
  }

  /** `element.hasAttribute(name)`, which is what an `[name]` selector tests. */
  predicate HasAttribute(e: Element, name: string) {
    GetAttribute(e, name).Some?
  }

  /** `element.setAttribute(name, value)`: that attribute reads back as
      `value`, and every attribute under another name is kept. */
  function SetAttribute(e: Element, name: string, value: string): (e': Element)
    ensures GetAttribute(e', name) == Some(value)
    ensures forall n :: Text.Lower(n) != Text.Lower(name) ==> GetAttribute(e', n) == GetAttribute(e, n)
    ensures e'.text == e.text
  {
    e.(attrs := e.attrs[Text.Lower(name) := value])
  }

  /** An attribute value the handlers act on: present and not the empty
      string (the empty string is falsy, so `if (text)` skips it). */
  function Literal(e: Element, name: string): (r: Option<string>)
    ensures r.Some? <==> GetAttribute(e, name).Some? && GetAttribute(e, name).value != ""
    ensures r.Some? ==> r == GetAttribute(e, name)
  {
    match GetAttribute(e, name)
    case Some(v) => if v != "" then Some(v) else None
    case None => None
  }
}

=== FILE: language.dfy ===
/** `LanguageManager` (js/script.js:150-285): the translation tables, the
    lookup with its fall-back, and `setLanguage`'s re-rendering of every
    element that declares per-language literals. */
module LanguageManager {
  import opened Common
  import Text
  import Dom
  import Storage
  import opened AppState

  const Key: string := "language"
  const Default: string := "en"

  /** The two languages the toggle moves between. */
  predicate IsLanguage(l: string) {
    l == "en" || l == "th"
  }

  const English: map<string, string> := map[
    "home" := "Home",
    "products" := "Products",
    "about" := "About",
    "contact" := "Contact",
    "loading" := "Loading...",
    "error" := "Error occurred",
    "success" := "Success",
    "close" := "Close",
    "like-new" := "Like New",
    "excellent" := "Excellent",
    "good" := "Good",
    "fair" := "Fair",
    "all" := "All Products",
    "clubs" := "Clubs",
    "balls" := "Balls",
    "bags" := "Bags",
    "accessories" := "Accessories"
  ]

  const Thai: map<string, string> := map[
    "home" := "หน้าแรก",
    "products" := "สินค้า",
    "about" := "เกี่ยวกับเรา",
    "contact" := "ติดต่อ",
    "loading" := "กำลังโหลด...",
    "error" := "เกิดข้อผิดพลาด",
    "success" := "สำเร็จ",
    "close" := "ปิด",
    "like-new" := "เหมือนใหม่",
    "excellent" := "สภาพดีเยี่ยม",
    "good" := "สภาพดี",
    "fair" := "สภาพพอใช้",
    "all" := "สินค้าทั้งหมด",
    "clubs" := "ไม้กอล์ฟ",
    "balls" := "ลูกกอล์ฟ",
    "bags" := "กระเป๋า",
    "accessories" := "อุปกรณ์เสริม"
  ]

  /** `LanguageManager.translations`, keyed by language. */
  const Translations: map<string, map<string, string>> := map["en" := English, "th" := Thai]

  /** The content keys both tables define. */
  const ContentKeys: set<string> := {
    "home", "products", "about", "contact",
    "loading", "error", "success", "close",
    "like-new", "excellent", "good", "fair",
    "all", "clubs", "balls", "bags", "accessories"
  }

  /** `translate(key)` under language `lang` (the current language): the
      table's entry when the language has a table, the table has the key and
      the entry is not empty; the key itself in every other case. For the
      two tables this means: under `en` and `th` every content key
      translates to its entry, and the key comes back unchanged exactly when
      the language or the key is not one of those. */
  function Translate(lang: string, key: string): (r: string)
    ensures lang in Translations && key in Translations[lang] && Translations[lang][key] != ""
            ==> r == Translations[lang][key]
    ensures !(lang in Translations && key in Translations[lang] && Translations[lang][key] != "")
            ==> r == key
    ensures IsLanguage(lang) && key in ContentKeys ==> r == Translations[lang][key]
    ensures r == key <==> !(IsLanguage(lang) && key in ContentKeys)
  {
    TableLookup(lang, key);
    if lang in Translations && key in Translations[lang] && Translations[lang][key] != "" then
      Translations[lang][key]
    else
      key
  }

  /** The two tables define exactly the same keys, and no entry is empty, so
      `Translate` never falls back on a table key. */
  lemma TablesAgree()
    ensures Translations.Keys == {"en", "th"}
    ensures English.Keys == ContentKeys && Thai.Keys == ContentKeys
    ensures forall k :: k in ContentKeys ==> English[k] != "" && Thai[k] != ""
  {
    assert English.Keys == ContentKeys by { EnglishKeys(); }
    assert Thai.Keys == ContentKeys by { ThaiKeys(); }
    assert forall k :: k in ContentKeys ==> English[k] != "" by { EnglishKeys(); }
    assert forall k :: k in ContentKeys ==> Thai[k] != "" by { ThaiKeys(); }
  }

  lemma EnglishKeys()
    ensures English.Keys == ContentKeys
    ensures forall k :: k in English ==> English[k] != ""
  {
    assert English.Keys == ContentKeys by {}
    assert forall k :: k in English ==> |English[k]| > 0 by {}
  }

  lemma ThaiKeys()
    ensures Thai.Keys == ContentKeys
    ensures forall k :: k in Thai ==> Thai[k] != ""
  {
    assert Thai.Keys == ContentKeys by {}
    assert forall k :: k in Thai ==> |Thai[k]| > 0 by {}
  }

  /** There are seventeen content keys: four navigation labels, four common
      words, four product conditions and five categories. */
  lemma SeventeenKeys()
    ensures |ContentKeys| == 17
  {
    GroupSizes();
    GroupsDisjoint();
    GroupsCoverKeys();
    DisjointUnionSize(NavKeys, CommonKeys);
    DisjointUnionSize(NavKeys + CommonKeys, ConditionKeys);
    DisjointUnionSize(NavKeys + CommonKeys + ConditionKeys, CategoryKeys);
  }

  const NavKeys: set<string> := {"home", "products", "about", "contact"}
  const CommonKeys: set<string> := {"loading", "error", "success", "close"}
  const ConditionKeys: set<string> := {"like-new", "excellent", "good", "fair"}
  const CategoryKeys: set<string> := {"all", "clubs", "balls", "bags", "accessories"}

  lemma GroupSizes()
    ensures |NavKeys| == 4 && |CommonKeys| == 4 && |ConditionKeys| == 4 && |CategoryKeys| == 5
  {
    assert |NavKeys| == 4 by {}
    assert |CommonKeys| == 4 by {}
    assert |ConditionKeys| == 4 by {}
    assert |CategoryKeys| == 5 by {}
  }

  lemma GroupsDisjoint()
    ensures NavKeys !! CommonKeys
    ensures (NavKeys + CommonKeys) !! ConditionKeys
    ensures (NavKeys + CommonKeys + ConditionKeys) !! CategoryKeys
  {
    assert NavKeys !! CommonKeys by {}
    assert NavKeys !! ConditionKeys by {}
    assert CommonKeys !! ConditionKeys by {}
    assert NavKeys !! CategoryKeys by {}
    assert CommonKeys !! CategoryKeys by {}
    assert ConditionKeys !! CategoryKeys by {}
  }

  lemma GroupsCoverKeys()
    ensures ContentKeys == NavKeys + CommonKeys + ConditionKeys + CategoryKeys
  {
  }

  lemma DisjointUnionSize(a: set<string>, b: set<string>)
    requires a !! b
    ensures |a + b| == |a| + |b|
  {
  }

  /** Which lookups find a non-empty entry: exactly the content keys under
      `en` and `th`, and none of those entries is spelt like its key. */
  lemma TableLookup(lang: string, key: string)
    ensures (lang in Translations && key in Translations[lang] && Translations[lang][key] != "")
            <==> IsLanguage(lang) && key in ContentKeys
    ensures IsLanguage(lang) && key in ContentKeys ==> Translations[lang][key] != key
  {
    TablesAgree();
    if IsLanguage(lang) && key in ContentKeys {
      EntriesDifferFromKeys();
    }
  }

  /** No entry of either table is spelt like its key. */
  lemma EntriesDifferFromKeys()
    ensures forall k :: k in ContentKeys ==> English[k] != k
    ensures forall k :: k in ContentKeys ==> Thai[k] != k
  {
    TablesAgree();
    forall k | k in English
      ensures English[k] != k
    {
      EnglishEntryDiffers(k);
    }
    forall k | k in Thai
      ensures Thai[k] != k
    {
      ThaiEntryDiffers(k);
    }
  }

  lemma EnglishEntryDiffers(k: string)
    requires k in English
    ensures English[k] != k
  {
  }

  lemma ThaiEntryDiffers(k: string)
    requires k in Thai
    ensures Thai[k] != k
  {
  }

  /** Under a language without a table every key is its own translation. */
  lemma TranslateUnknownLanguage(lang: string, key: string)
    requires !IsLanguage(lang)
    ensures Translate(lang, key) == key
  {
  }

  // ---- re-rendering ----

  /** Matched by `[data-en][data-th]`: its text follows the language. */
  predicate BoundText(e: Dom.Element) {
    Dom.HasAttribute(e, "data-en") && Dom.HasAttribute(e, "data-th")
  }

  /** Matched by `[data-placeholder-en][data-placeholder-th]`. */
  predicate BoundPlaceholder(e: Dom.Element) {
    Dom.HasAttribute(e, "data-placeholder-en") && Dom.HasAttribute(e, "data-placeholder-th")
  }

  function TextName(lang: string): string { "data-" + lang }
  function PlaceholderName(lang: string): string { "data-placeholder-" + lang }

  /** The text a bound element shows under `lang`, when it has one. */
  function TextLiteral(e: Dom.Element, lang: string): Option<string> {
    if BoundText(e) then Dom.Literal(e, TextName(lang)) else None
  }

  /** The placeholder a bound element shows under `lang`, when it has one. */
  function PlaceholderLiteral(e: Dom.Element, lang: string): Option<string> {
    if BoundPlaceholder(e) then Dom.Literal(e, PlaceholderName(lang)) else None
  }

  /** The `placeholder` attribute `setLanguage` writes. */
  const PlaceholderAttr: string := "placeholder"

  /** The `content` attribute of the description `setLanguage` writes. */
  const ContentAttr: string := "content"

  /** The attribute names the handlers use are already in lower case, and
      none of the names a literal is read from is `placeholder`, so writing a
      placeholder never changes a later lookup. */
  lemma AttributeNames(lang: string)
    ensures Text.Lower(PlaceholderAttr) == PlaceholderAttr
    ensures Text.Lower(TextName(lang)) != PlaceholderAttr
    ensures Text.Lower(PlaceholderName(lang)) != PlaceholderAttr
    ensures Text.Lower("data-en") != PlaceholderAttr && Text.Lower("data-th") != PlaceholderAttr
    ensures Text.Lower("data-placeholder-en") != PlaceholderAttr
    ensures Text.Lower("data-placeholder-th") != PlaceholderAttr
    ensures Text.Lower(TextName(lang)) != Text.Lower(ContentAttr)
  {
    Text.LowerOfLower(PlaceholderAttr);
    Text.LowerOfLower(ContentAttr);
    assert Text.Lower(TextName(lang))[0] == 'd';
    assert Text.Lower(PlaceholderName(lang))[0] == 'd';
    assert Text.Lower("data-en")[0] == 'd';
    assert Text.Lower("data-th")[0] == 'd';
    assert Text.Lower("data-placeholder-en")[0] == 'd';
    assert Text.Lower("data-placeholder-th")[0] == 'd';
  }

  /** What both passes of `setLanguage` do to one element: the text pass
      (elements matching `[data-en][data-th]`) and the placeholder pass
      (elements matching `[data-placeholder-en][data-placeholder-th]`). The
      passes touch different parts of an element and read nothing the other
      writes, so running them element by element is the same as running one
      over the whole document and then the other. */
  function RenderElement(e: Dom.Element, lang: string): (r: Dom.Element)
    ensures r.text == TextLiteral(e, lang).GetOr(e.text)
    ensures r.attrs == match PlaceholderLiteral(e, lang)
                       case Some(p) => e.attrs[PlaceholderAttr := p]
                       case None => e.attrs
  {
    AttributeNames(lang);
    var texted := match TextLiteral(e, lang)
                  case Some(t) => e.(text := t)
                  case None => e;
    match PlaceholderLiteral(e, lang)
    case Some(p) => Dom.SetAttribute(texted, PlaceholderAttr, p)
    case None => texted
  }

  /** Rendering keeps an element bound and keeps its literals. */
  lemma RenderElementKeepsLiterals(e: Dom.Element, lang: string, other: string)
    ensures BoundText(RenderElement(e, lang)) == BoundText(e)
    ensures BoundPlaceholder(RenderElement(e, lang)) == BoundPlaceholder(e)
    ensures TextLiteral(RenderElement(e, lang), other) == TextLiteral(e, other)
    ensures PlaceholderLiteral(RenderElement(e, lang), other) == PlaceholderLiteral(e, other)
  {
    AttributeNames(other);
  }

  /** `meta[name="description"]` takes its `content` from `data-<lang>`. */
  function RenderMeta(m: Dom.Element, lang: string): (r: Dom.Element)
    ensures Dom.Literal(m, TextName(lang)).Some? ==>
              Dom.GetAttribute(r, ContentAttr) == Dom.Literal(m, TextName(lang))
    ensures Dom.Literal(m, TextName(lang)).None? ==> r == m
    ensures forall n :: Text.Lower(n) != ContentAttr ==> Dom.GetAttribute(r, n) == Dom.GetAttribute(m, n)
    ensures r.text == m.text
  {
    Text.LowerOfLower(ContentAttr);
    match Dom.Literal(m, TextName(lang))
    case Some(c) => Dom.SetAttribute(m, ContentAttr, c)
    case None => m
  }

  /** Rendering the description keeps its literals. */
  lemma RenderMetaKeepsLiterals(m: Dom.Element, lang: string, other: string)
    ensures Dom.Literal(RenderMeta(m, lang), TextName(other)) == Dom.Literal(m, TextName(other))
    ensures Dom.Literal(m, TextName(other)).Some? ==> RenderMeta(RenderMeta(m, lang), other) == RenderMeta(m, other)
  {
    AttributeNames(other);
    if Dom.Literal(m, TextName(other)).Some? && Dom.Literal(m, TextName(lang)).Some? {
      var k := Text.Lower(ContentAttr);
      var c1 := Dom.Literal(m, TextName(lang)).value;
      var c2 := Dom.Literal(m, TextName(other)).value;
      assert m.attrs[k := c1][k := c2] == m.attrs[k := c2];
    }
  }

  /** `<title>` takes its text from `data-<lang>`. */
  function RenderTitle(t: Dom.Element, lang: string): (r: Dom.Element)
    ensures r.text == Dom.Literal(t, TextName(lang)).GetOr(t.text)
    ensures r.attrs == t.attrs
  {
    match Dom.Literal(t, TextName(lang))
    case Some(s) => t.(text := s)
    case None => t
  }

  /** The document side of `setLanguage(lang)`. The root's `lang` becomes
      `lang`; an element's text becomes its `data-<lang>` literal, and its
      placeholder its `data-placeholder-<lang>` literal, exactly when it is
      bound and that literal is not empty; nothing else of any element
      changes; the indicator shows `lang` in upper case. */
  function Render(doc: Dom.Document, lang: string): (d: Dom.Document)
    ensures Dom.GetAttribute(d.root, "lang") == Some(lang)
    ensures |d.elements| == |doc.elements|
    ensures forall i :: 0 <= i < |doc.elements| ==>
              d.elements[i].text == TextLiteral(doc.elements[i], lang).GetOr(doc.elements[i].text)
    ensures forall i :: 0 <= i < |doc.elements| ==>
              d.elements[i].attrs == match PlaceholderLiteral(doc.elements[i], lang)
                                     case Some(p) => doc.elements[i].attrs[PlaceholderAttr := p]
                                     case None => doc.elements[i].attrs
    ensures forall n :: Text.Lower(n) != "lang" ==> Dom.GetAttribute(d.root, n) == Dom.GetAttribute(doc.root, n)
    ensures d.meta.Some? <==> doc.meta.Some?
    ensures doc.meta.Some? && Dom.Literal(doc.meta.value, TextName(lang)).Some? ==>
              Dom.GetAttribute(d.meta.value, ContentAttr) == Dom.Literal(doc.meta.value, TextName(lang))
    ensures doc.meta.Some? && Dom.Literal(doc.meta.value, TextName(lang)).None? ==> d.meta == doc.meta
    ensures doc.meta.Some? ==>
              forall n :: Text.Lower(n) != ContentAttr ==>
                Dom.GetAttribute(d.meta.value, n) == Dom.GetAttribute(doc.meta.value, n)
    ensures d.title.Some? <==> doc.title.Some?
    ensures doc.title.Some? ==>
              d.title.value.text == Dom.Literal(doc.title.value, TextName(lang)).GetOr(doc.title.value.text)
              && d.title.value.attrs == doc.title.value.attrs
    ensures d.langText == if doc.langText.Some? then Some(Text.Upper(lang)) else None
    ensures d.themeIcon == doc.themeIcon
  {
    Text.LowerOfLower("lang");
    Text.LowerOfLower(ContentAttr);
    var root := Dom.SetAttribute(doc.root, "lang", lang);
    var elements := seq(|doc.elements|, i requires 0 <= i < |doc.elements| => RenderElement(doc.elements[i], lang));
    var meta := if doc.meta.Some? then Some(RenderMeta(doc.meta.value, lang)) else None;
    var title := if doc.title.Some? then Some(RenderTitle(doc.title.value, lang)) else None;
    var langText := if doc.langText.Some? then Some(Text.Upper(lang)) else None;
    Dom.Document(root, elements, meta, title, doc.themeIcon, langText)
  }

  /** `setLanguage(lang)`: any string is taken as is. The in-memory language,
      the rendered document and (on a working store) the stored value all
      follow `lang`; then a `languageChanged` notification carrying `lang`
      fires, after every other change. Theme and category are untouched. */
  function SetLanguage(w: World, lang: string): (w': World)
    ensures w'.state == w.state.(lang := lang)
    ensures CurrentLanguage(w') == lang
    ensures w'.doc == Render(w.doc, lang)
    ensures w.store.health == Storage.Healthy ==> Storage.Get(w'.store, Key, Default) == lang
    ensures w.store.health == Storage.Healthy ==>
              w'.store.entries == w.store.entries[Key := Storage.Json(lang)] && w'.store.health == w.store.health
    ensures w.store.health != Storage.Healthy ==> w'.store == w.store
    ensures w'.notices == w.notices + [Notice(LanguageChanged(lang), Observe(w'))]
    ensures NotifiedLast(w')
  {
    var updated := w.(state := w.state.(lang := lang));
    var rendered := updated.(doc := Render(updated.doc, lang));
    Publish(rendered, Key, lang, LanguageChanged(lang))
  }

  /** `getCurrentLanguage()`. */
  function CurrentLanguage(w: World): string {
    w.state.lang
  }

  /** The language `toggleLanguage` moves to: `th` from `en`, and `en` from
      anything else. */
  function Next(lang: string): (next: string)
    ensures IsLanguage(next)
    ensures next == "th" <==> lang == "en"
  {
    if lang == "en" then "th" else "en"
  }

  /** `toggleLanguage()`. */
  function Toggle(w: World): (w': World)
    ensures IsLanguage(CurrentLanguage(w'))
    ensures CurrentLanguage(w') != CurrentLanguage(w)
    ensures CurrentLanguage(w') == Next(CurrentLanguage(w))
    ensures w'.state == w.state.(lang := CurrentLanguage(w'))
    ensures w.store.health != Storage.Healthy ==> w'.store == w.store
    ensures w'.doc == Render(w.doc, CurrentLanguage(w'))
    ensures w.store.health == Storage.Healthy ==> Storage.Get(w'.store, Key, Default) == CurrentLanguage(w')
    ensures w'.notices == w.notices + [Notice(LanguageChanged(CurrentLanguage(w')), Observe(w'))]
  {
    SetLanguage(w, Next(w.state.lang))
  }

  /** `init()` without the click wiring: the stored language, or `en` when
      nothing usable is stored. */
  function Init(w: World): (w': World)
    ensures CurrentLanguage(w') ==
              if w.store.health != Storage.Unavailable && Key in w.store.entries && w.store.entries[Key].Json?
              then w.store.entries[Key].value
              else Default
    ensures w' == SetLanguage(w, if w.store.health != Storage.Unavailable && Key in w.store.entries && w.store.entries[Key].Json?
                                 then w.store.entries[Key].value
                                 else Default)
    ensures NotifiedLast(w')
  {
    SetLanguage(w, Storage.Get(w.store, Key, Default))
  }

  // ---- properties ----

  lemma NextInvolution(lang: string)
    requires IsLanguage(lang)
    ensures Next(Next(lang)) == lang
  {
  }

  /** Toggling twice from either language restores the language. */
  lemma ToggleTwice(w: World)
    requires IsLanguage(w.state.lang)
    ensures Toggle(Toggle(w)).state == w.state
    ensures |Toggle(Toggle(w)).notices| == |w.notices| + 2
  {
  }

  /** With nothing stored, or an unreadable store, start-up gives `en`, and
      the root element's `lang` reads `en`. */
  lemma InitDefaultsToEnglish(w: World)
    requires Key !in w.store.entries || w.store.health == Storage.Unavailable
    ensures CurrentLanguage(Init(w)) == "en"
    ensures Dom.GetAttribute(Init(w).doc.root, "lang") == Some("en")
  {
  }

  /** Scenario: with `th` stored, start-up shows every bound element's
      `data-th` literal and the indicator reads `TH`. */
  lemma InitFromStoredThai(w: World)
    requires w.store.health == Storage.Healthy && Key in w.store.entries
    requires w.store.entries[Key] == Storage.Json("th")
    requires w.doc.langText.Some?
    ensures CurrentLanguage(Init(w)) == "th"
    ensures Init(w).doc.langText == Some("TH")
    ensures forall i :: 0 <= i < |w.doc.elements| && TextLiteral(w.doc.elements[i], "th").Some? ==>
              Init(w).doc.elements[i].text == TextLiteral(w.doc.elements[i], "th").value
  {
    assert Text.Upper("th") == "TH" by {
      assert Text.Upper("th")[0] == 'T' && Text.Upper("th")[1] == 'H';
    }
  }

  /** Applying the same language twice gives the same document as applying it once. */
  lemma RenderIdempotent(doc: Dom.Document, lang: string)
    ensures Render(Render(doc, lang), lang) == Render(doc, lang)
  {
    var once := Render(doc, lang);
    var twice := Render(once, lang);
    forall i | 0 <= i < |doc.elements|
      ensures twice.elements[i] == once.elements[i]
    {
      RenderElementKeepsLiterals(doc.elements[i], lang, lang);
    }
    assert twice.root == once.root;
    if doc.meta.Some? {
      RenderMetaKeepsLiterals(doc.meta.value, lang, lang);
    }
    assert twice.meta == once.meta;
    assert twice.title == once.title;
  }

  /** Every literal-bearing part of the document has a non-empty literal for `lang`. */
  predicate Covers(doc: Dom.Document, lang: string) {
    && (forall i :: 0 <= i < |doc.elements| && BoundText(doc.elements[i]) ==>
          TextLiteral(doc.elements[i], lang).Some?)
    && (forall i :: 0 <= i < |doc.elements| && BoundPlaceholder(doc.elements[i]) ==>
          PlaceholderLiteral(doc.elements[i], lang).Some?)
    && (doc.meta.Some? ==> Dom.Literal(doc.meta.value, TextName(lang)).Some?)
    && (doc.title.Some? ==> Dom.Literal(doc.title.value, TextName(lang)).Some?)
  }

  /** Switching to `other` and back to `lang` restores the document exactly,
      when every bound part has a literal for `lang`. */
  lemma RenderRestores(doc: Dom.Document, other: string, lang: string)
    requires Covers(doc, lang)
    ensures Render(Render(doc, other), lang) == Render(doc, lang)
  {
    RenderRestoresElements(doc, other, lang);
    var back := Render(Render(doc, other), lang);
    var direct := Render(doc, lang);
    if doc.meta.Some? {
      RenderMetaKeepsLiterals(doc.meta.value, other, lang);
    }
    assert back.meta == direct.meta;
    assert back.title == direct.title;
    assert back.root == direct.root;
  }

  lemma RenderRestoresElements(doc: Dom.Document, other: string, lang: string)
    requires Covers(doc, lang)
    ensures Render(Render(doc, other), lang).elements == Render(doc, lang).elements
  {
    var away := Render(doc, other);
    var back := Render(away, lang);
    var direct := Render(doc, lang);
    forall i | 0 <= i < |doc.elements|
      ensures back.elements[i] == direct.elements[i]
    {
      var e := doc.elements[i];
      RenderAt(doc, other, i);
      RenderAt(away, lang, i);
      RenderAt(doc, lang, i);
      RenderElementRestores(e, other, lang);
    }
  }

  /** The `i`-th element of a rendered document is the `i`-th element rendered. */
  lemma RenderAt(doc: Dom.Document, lang: string, i: nat)
    requires i < |doc.elements|
    ensures |Render(doc, lang).elements| == |doc.elements|
    ensures Render(doc, lang).elements[i] == RenderElement(doc.elements[i], lang)
  {
  }

  /** Switching one element to `other` and back to `lang` restores it, when
      each of its bindings has a literal for `lang`. */
  lemma RenderElementRestores(e: Dom.Element, other: string, lang: string)
    requires BoundText(e) ==> TextLiteral(e, lang).Some?
    requires BoundPlaceholder(e) ==> PlaceholderLiteral(e, lang).Some?
    ensures RenderElement(RenderElement(e, other), lang) == RenderElement(e, lang)
  {
    var away := RenderElement(e, other);
    RenderElementKeepsLiterals(e, other, lang);
    if PlaceholderLiteral(e, lang).Some? {
      var p := PlaceholderLiteral(e, lang).value;
      if PlaceholderLiteral(e, other).Some? {
        var q := PlaceholderLiteral(e, other).value;
        assert e.attrs[PlaceholderAttr := q][PlaceholderAttr := p] == e.attrs[PlaceholderAttr := p];
      }
    }
  }

  /** Scenario: an element with `data-en="Home"` and `data-th="หน้าแรก"`
      shows the Thai literal under `th`, and exactly `Home` again after
      switching back to `en`. */
  lemma HomeRoundTrip(doc: Dom.Document)
    requires |doc.elements| == 1
    requires doc.elements[0].attrs == map["data-en" := "Home", "data-th" := "หน้าแรก"]
    ensures Render(doc, "th").elements[0].text == "หน้าแรก"
    ensures Render(Render(doc, "th"), "en").elements[0].text == "Home"
  {
    assert Text.Lower("data-en") == "data-en";
    assert Text.Lower("data-th") == "data-th";
    assert TextName("th") == "data-th" && TextName("en") == "data-en";
  }

  /** Attribute names are matched case-insensitively, so `setLanguage("TH")`
      renders the elements exactly as `setLanguage("th")` does. */
  lemma UpperCaseCodeReadsSameLiterals(doc: Dom.Document)
    ensures Render(doc, "TH").elements == Render(doc, "th").elements
  {
    forall i | 0 <= i < |doc.elements|
      ensures Render(doc, "TH").elements[i] == Render(doc, "th").elements[i]
    {
      RenderAt(doc, "TH", i);
      RenderAt(doc, "th", i);
      UpperCaseElement(doc.elements[i]);
    }
  }

  lemma UpperCaseElement(e: Dom.Element)
    ensures RenderElement(e, "TH") == RenderElement(e, "th")
  {
    UpperCaseNames();
    assert TextLiteral(e, "TH") == TextLiteral(e, "th");
    assert PlaceholderLiteral(e, "TH") == PlaceholderLiteral(e, "th");
  }

  lemma UpperCaseNames()
    ensures Text.Lower(TextName("TH")) == Text.Lower(TextName("th"))
    ensures Text.Lower(PlaceholderName("TH")) == Text.Lower(PlaceholderName("th"))
  {
    assert Text.Lower(TextName("TH")) == Text.Lower(TextName("th"));
    assert Text.Lower(PlaceholderName("TH")) == Text.Lower(PlaceholderName("th"));
  }
}

=== FILE: navigation.dfy ===
/** `NavigationManager`'s mobile menu and link highlighting
    (js/script.js:313-345). */
module NavigationManager {
  import opened Common

  /** A `.nav-link`: its `href` attribute and whether it has class `active`. */
  datatype Link = Link(href: Option<string>, active: bool)

  /** The navigation bar. `hamburger` and `menu` are the `active` classes of
      `#hamburger` and `.nav-menu`, `None` when the page lacks the element. */
  datatype NavBar = NavBar(hamburger: Option<bool>, menu: Option<bool>, links: seq<Link>)

  // ---- mobile menu ----

  /** `toggleMobileMenu()`: when both elements exist, each flips its own
      class; otherwise nothing happens. */
  function ToggleMobileMenu(nav: NavBar): (n: NavBar)
    ensures n.links == nav.links
    ensures n.hamburger.Some? == nav.hamburger.Some? && n.menu.Some? == nav.menu.Some?
    ensures nav.hamburger.Some? && nav.menu.Some? ==>
              n.hamburger.value != nav.hamburger.value && n.menu.value != nav.menu.value
    ensures !(nav.hamburger.Some? && nav.menu.Some?) ==> n == nav
  {
    match (nav.hamburger, nav.menu)
    case (Some(h), Some(m)) => nav.(hamburger := Some(!h), menu := Some(!m))
    case _ => nav
  }

  /** `closeMobileMenu()`: when both elements exist, both lose the class;
      otherwise nothing happens. */
  function CloseMobileMenu(nav: NavBar): (n: NavBar)
    ensures n.links == nav.links
    ensures nav.hamburger.Some? && nav.menu.Some? ==> n.hamburger == Some(false) && n.menu == Some(false)
    ensures !(nav.hamburger.Some? && nav.menu.Some?) ==> n == nav
  {
    match (nav.hamburger, nav.menu)
    case (Some(_), Some(_)) => nav.(hamburger := Some(false), menu := Some(false))
    case _ => nav
  }

  /** Toggling twice restores both flags. */
  lemma ToggleTwice(nav: NavBar)
    ensures ToggleMobileMenu(ToggleMobileMenu(nav)) == nav
  {
  }

  /** Closing is idempotent, and closing after a toggle from the closed
      state gives the closed state back. */
  lemma CloseIdempotent(nav: NavBar)
    ensures CloseMobileMenu(CloseMobileMenu(nav)) == CloseMobileMenu(nav)
    ensures CloseMobileMenu(ToggleMobileMenu(CloseMobileMenu(nav))) == CloseMobileMenu(nav)
  {
  }

  // ---- the current page ----

  /** `s.split(sep)`: the pieces between separators, at least one. */
  function Split(s: string, sep: char): (parts: seq<string>)
    ensures |parts| >= 1
    ensures |parts| == 1 ==> parts[0] == s
    ensures |parts| == 1 <==> forall i :: 0 <= i < |s| ==> s[i] != sep
  {
    if s == [] then [[]]
    else
      var rest := Split(s[1..], sep);
      if s[0] == sep then [[]] + rest
      else [[s[0]] + rest[0]] + rest[1..]
  }

  /** `array.pop()` on a non-empty array: its last element. */
  function Last<T>(xs: seq<T>): T
    requires |xs| >= 1
  {
    xs[|xs| - 1]
  }

  /** The last piece of `s.split(sep)` is the text after the last separator:
      it contains no separator, it ends `s`, and either it is all of `s` or a
      separator comes just before it. */
  lemma {:induction false} LastPiece(s: string, sep: char)
    ensures var last := Last(Split(s, sep));
            && (forall i :: 0 <= i < |last| ==> last[i] != sep)
            && |last| <= |s| && last == s[|s| - |last|..]
            && (|last| == |s| || s[|s| - |last| - 1] == sep)
  {
    if s != [] {
      var tail := s[1..];
      LastPiece(tail, sep);
      LastStep(s, sep);
      var last := Last(Split(s, sep));
      if !(s[0] != sep && |Split(tail, sep)| == 1) {
        assert tail[|tail| - |last|..] == s[|s| - |last|..];
      }
    }
  }

  /** The last piece of a non-empty string: all of it when the first
      character is not a separator and the rest has none, otherwise the last
      piece of the rest. */
  lemma LastStep(s: string, sep: char)
    requires s != []
    ensures var rest := Split(s[1..], sep);
            Last(Split(s, sep)) == if s[0] != sep && |rest| == 1 then s else Last(rest)
  {
    var rest := Split(s[1..], sep);
    if s[0] != sep && |rest| == 1 {
      assert [s[0]] + s[1..] == s;
    }
  }

  /** `window.location.pathname.split('/').pop() || 'index.html'`. */
  function CurrentPage(path: string): (page: string)
    ensures page != ""
    ensures forall i :: 0 <= i < |page| ==> page[i] != '/'
  {
    LastPiece(path, '/');
    var last := Last(Split(path, '/'));
    if last == "" then "index.html" else last
  }

  /** A path ending in `/` (the site root, say) names `index.html`. */
  lemma DirectoryPathIsIndex(path: string)
    requires |path| > 0 && path[|path| - 1] == '/'
    ensures CurrentPage(path) == "index.html"
  {
    LastPiece(path, '/');
  }

  /** A path ending in a file name names that file. */
  lemma FilePathIsFileName(dir: string, file: string)
    requires file != "" && forall i :: 0 <= i < |file| ==> file[i] != '/'
    ensures CurrentPage(dir + "/" + file) == file
  {
    var path := dir + "/" + file;
    LastPiece(path, '/');
    var last := Last(Split(path, '/'));
    assert path[|path| - |file| - 1] == '/';
  }

  /** The highlighting test exactly as `updateActiveNavigation` writes it,
      including the `currentPage === ''` alternative. */
  predicate HighlightTest(href: Option<string>, currentPage: string) {
    href == Some(currentPage) || (currentPage == "" && href == Some("index.html"))
  }

  /** `updateActiveNavigation()`: every link gets class `active` exactly
      when its `href` is the current page. The second alternative of the
      test can never apply, because the current page is never empty. */
  function UpdateActiveNavigation(nav: NavBar, path: string): (n: NavBar)
    ensures n.hamburger == nav.hamburger && n.menu == nav.menu
    ensures |n.links| == |nav.links|
    ensures forall i :: 0 <= i < |nav.links| ==>
              n.links[i].href == nav.links[i].href
              && (n.links[i].active <==> nav.links[i].href == Some(CurrentPage(path)))
  {
    var page := CurrentPage(path);
    var links := seq(|nav.links|, i requires 0 <= i < |nav.links| =>
                     nav.links[i].(active := HighlightTest(nav.links[i].href, page)));
    nav.(links := links)
  }

  /** Highlighting twice is highlighting once. */
  lemma UpdateActiveNavigationIdempotent(nav: NavBar, path: string)
    ensures UpdateActiveNavigation(UpdateActiveNavigation(nav, path), path) == UpdateActiveNavigation(nav, path)
  {
  }
}

=== FILE: products.dfy ===
/** `ProductManager.filterByCategory` and `updateResultsCount`
    (js/script.js:391-460): which cards are shown, which filter button is
    active, the results line, and whether the URL keeps a `category`
    parameter. The fade animations and the 300 ms delay before a hidden card
    gets `display: none` are not modelled: a card's `shown` flag is the state
    it ends in. */
module ProductManager {
  import opened Common
  import Text
  import AppState
  import LanguageManager

  /** A `.product-card`; `category` is its `data-category` attribute. */
  datatype Card = Card(category: Option<string>, shown: bool)

  /** A `.filter-btn`; `active` is its `active` class. */
  datatype FilterButton = FilterButton(category: Option<string>, active: bool)

  /** The products page: its filter buttons and cards in document order, the
      text of `#resultsCount` when the page has it, and the URL's `category`
      search parameter. */
  datatype Page = Page(
    buttons: seq<FilterButton>,
    cards: seq<Card>,
    resultsCount: Option<string>,
    categoryParam: Option<string>)

  /** Whether a card stays visible under `category`. */
  predicate Shows(category: string, card: Card) {
    category == "all" || card.category == Some(category)
  }

  /** The number of visible cards. */
  function CountShown(cards: seq<Card>): (n: nat)
    ensures n <= |cards|
  {
    if cards == [] then 0
    else CountShown(cards[..|cards| - 1]) + (if cards[|cards| - 1].shown then 1 else 0)
  }

  /** When every card is visible, the count is the number of cards. */
  lemma {:induction false} CountShownAll(cards: seq<Card>)
    requires forall i :: 0 <= i < |cards| ==> cards[i].shown
    ensures CountShown(cards) == |cards|
  {
    if cards != [] {
      CountShownAll(cards[..|cards| - 1]);
    }
  }

  // ---- the results line ----

  /** The results line `updateResultsCount` writes: for `all`, the English
      or Thai "all products" sentence; otherwise the category's translated
      name (lower-cased in English). Every language other than `en` gets the
      Thai sentence. Either way the line is a prefix and a suffix that depend
      only on the language and the category, with the count's numeral
      between them. */
  function ResultsText(lang: string, category: string, count: nat): (r: string)
    ensures r == CountPrefix(lang, category) + Text.Decimal(count) + CountSuffix(lang, category)
  {
    var n := Text.Decimal(count);
    if category == "all" then
      if lang == "en" then "Showing all " + n + " products"
      else "แสดงสินค้าทั้งหมด " + n + " รายการ"
    else
      var name := LanguageManager.Translate(lang, category);
      assert "Showing " + n + " " + Text.Lower(name) == "Showing " + n + (" " + Text.Lower(name));
      if lang == "en" then "Showing " + n + " " + Text.Lower(name)
      else "แสดง" + name + " " + n + " รายการ"
  }

  /** The text before the count. */
  function CountPrefix(lang: string, category: string): string {
    if category == "all" then
      if lang == "en" then "Showing all " else "แสดงสินค้าทั้งหมด "
    else if lang == "en" then "Showing "
    else "แสดง" + LanguageManager.Translate(lang, category) + " "
  }

  /** The text after the count. */
  function CountSuffix(lang: string, category: string): string {
    if category == "all" then
      if lang == "en" then " products" else " รายการ"
    else if lang == "en" then " " + Text.Lower(LanguageManager.Translate(lang, category))
    else " รายการ"
  }

  lemma {:induction false} MiddleDetermined(p: string, a: string, b: string, s: string)
    requires p + a + s == p + b + s
    ensures a == b
  {
    assert |a| == |b|;
    assert a == (p + a + s)[|p|..|p| + |a|];
    assert b == (p + b + s)[|p|..|p| + |b|];
  }

  /** The results line determines the count: two different counts never
      produce the same line. */
  lemma ResultsTextDeterminesCount(lang: string, category: string, a: nat, b: nat)
    requires ResultsText(lang, category, a) == ResultsText(lang, category, b)
    ensures a == b
  {
    MiddleDetermined(CountPrefix(lang, category), Text.Decimal(a), Text.Decimal(b), CountSuffix(lang, category));
    Text.DecimalInjective(a, b);
  }

  /** Example: twelve cards under `all` in English. */
  lemma ResultsTextAllEnglish()
    ensures ResultsText("en", "all", 12) == "Showing all 12 products"
  {
    assert Text.Decimal(12) == "12";
    assert CountPrefix("en", "all") == "Showing all ";
    assert CountSuffix("en", "all") == " products";
  }

  /** Example: three clubs in English; the category name is lower-cased. */
  lemma ResultsTextClubsEnglish()
    ensures ResultsText("en", "clubs", 3) == "Showing 3 clubs"
  {
    assert LanguageManager.Translate("en", "clubs") == "Clubs";
    assert Text.Lower("Clubs") == "clubs" by {
      var l := Text.Lower("Clubs");
      assert l[0] == 'c' && l[1] == 'l' && l[2] == 'u' && l[3] == 'b' && l[4] == 's';
    }
    assert Text.Decimal(3) == "3";
  }

  /** Example: two balls in Thai. */
  lemma ResultsTextBallsThai()
    ensures ResultsText("th", "balls", 2) == "แสดงลูกกอล์ฟ 2 รายการ"
  {
    assert LanguageManager.Translate("th", "balls") == "ลูกกอล์ฟ";
    assert Text.Decimal(2) == "2";
    assert CountPrefix("th", "balls") == "แสดงลูกกอล์ฟ ";
    assert CountSuffix("th", "balls") == " รายการ";
  }

  /** Example: a language other than `en` gets the Thai sentence. */
  lemma ResultsTextOtherLanguage()
    ensures ResultsText("fr", "all", 1) == "แสดงสินค้าทั้งหมด 1 รายการ"
  {
    assert Text.Decimal(1) == "1";
  }

  /** `updateResultsCount(count, category)`: nothing happens without the
      `#resultsCount` element; otherwise it shows the results line for the
      given count, or, when no count is given (`null`), for the number of
      visible cards. */
  function UpdateResultsCount(lang: string, page: Page, count: Option<nat>, category: string): (p: Page)
    ensures p.resultsCount.Some? <==> page.resultsCount.Some?
    ensures p.resultsCount.Some? ==>
              p.resultsCount.value == ResultsText(lang, category, count.GetOr(CountShown(page.cards)))
    ensures p.cards == page.cards && p.buttons == page.buttons && p.categoryParam == page.categoryParam
  {
    if page.resultsCount.None? then page
    else
      var n := match count
               case Some(c) => c
               case None => CountShown(page.cards);
      page.(resultsCount := Some(ResultsText(lang, category, n)))
  }

  // ---- filtering ----

  /** `filterByCategory(category)`. Exactly the buttons whose `data-category`
      is `category` become active; a card is shown exactly when `category` is
      `all` or equals the card's `data-category`; `visibleCount` is the number
      of shown cards, so every card for `all` and never more than all; the
      results line reports that count; the URL drops its `category` parameter
      for `all` and carries `category` otherwise. */
  method FilterByCategory(state: AppState.State, page: Page, category: string)
    returns (state': AppState.State, page': Page, visibleCount: nat)
    ensures state' == state.(category := category)
    ensures |page'.buttons| == |page.buttons|
    ensures forall i :: 0 <= i < |page.buttons| ==>
              page'.buttons[i].category == page.buttons[i].category
              && (page'.buttons[i].active <==> page.buttons[i].category == Some(category))
    ensures |page'.cards| == |page.cards|
    ensures forall i :: 0 <= i < |page.cards| ==>
              page'.cards[i].category == page.cards[i].category
              && (page'.cards[i].shown <==> Shows(category, page.cards[i]))
    ensures visibleCount == CountShown(page'.cards)
    ensures visibleCount <= |page.cards|
    ensures category == "all" ==> visibleCount == |page.cards|
    ensures page'.resultsCount.Some? <==> page.resultsCount.Some?
    ensures page'.resultsCount.Some? ==>
              page'.resultsCount.value == ResultsText(state.lang, category, visibleCount)
    ensures page'.categoryParam == if category == "all" then None else Some(category)
  {
    state' := state.(category := category);

    var buttons := seq(|page.buttons|, i requires 0 <= i < |page.buttons| =>
                       page.buttons[i].(active := page.buttons[i].category == Some(category)));

    var cards: seq<Card> := [];
    visibleCount := 0;
    var i := 0;
    while i < |page.cards|
      invariant 0 <= i <= |page.cards|
      invariant |cards| == i
      invariant forall j :: 0 <= j < i ==>
                  cards[j] == page.cards[j].(shown := Shows(category, page.cards[j]))
      invariant visibleCount == CountShown(cards)
    {
      var card := page.cards[i];
      var previous := cards;
      if category == "all" || card.category == Some(category) {
        cards := cards + [card.(shown := true)];
        visibleCount := visibleCount + 1;
      } else {
        cards := cards + [card.(shown := false)];
      }
      assert cards[..|cards| - 1] == previous;
      i := i + 1;
    }
    if category == "all" {
      CountShownAll(cards);
    }

    page' := UpdateResultsCount(state.lang, page.(buttons := buttons, cards := cards), Some(visibleCount), category);
    page' := page'.(categoryParam := if category == "all" then None else Some(category));
  }
}

=== FILE: storage.dfy ===
/** The `Storage` facade over `localStorage` (js/script.js:75-104).

    The backing store is a string-keyed map. What `getItem` returns for a key
    is seen through `JSON.parse`, which is modelled as the identity on values:
    an entry either parses to a value, is the empty string (which the facade
    treats as missing), or is text that does not parse. The store can also be
    out of quota (every write throws) or unavailable (every call throws).

    The backend calls return an `Outcome` that may be `Threw`; the facade's
    `Get`, `Set` and `Remove` catch every throw, so their results carry no
    error at all: nothing a caller sees can be an exception. */
module Storage {
  import opened Common

  datatype Entry<V> = Blank | Json(value: V) | Malformed

  datatype Health = Healthy | Full | Unavailable

  datatype Store<V> = Store(entries: map<string, Entry<V>>, health: Health)

  /** The result of a backend call: a value, or an exception. */
  datatype Outcome<T> = Done(value: T) | Threw

  // ---- the backend: calls that may throw ----

  /** `localStorage.getItem`: `null` (here `None`) for a missing key. */
  function GetItem<V>(s: Store<V>, key: string): Outcome<Option<Entry<V>>> {
    if s.health == Unavailable then Threw
    else if key in s.entries then Done(Some(s.entries[key]))
    else Done(None)
  }

  /** `localStorage.setItem`: throws when the store is full or unavailable. */
  function SetItem<V>(s: Store<V>, key: string, item: Entry<V>): Outcome<Store<V>> {
    if s.health != Healthy then Threw
    else Done(s.(entries := s.entries[key := item]))
  }

  /** `localStorage.removeItem`: a missing key is not an error. */
  function RemoveItem<V>(s: Store<V>, key: string): Outcome<Store<V>> {
    if s.health == Unavailable then Threw
    else Done(s.(entries := s.entries - {key}))
  }

  /** `JSON.stringify`, the identity on values. */
  function Stringify<V>(v: V): Entry<V> {
    Json(v)
  }

  /** `JSON.parse`: throws on text that is not JSON (the empty string included). */
  function Parse<V>(e: Entry<V>): Outcome<V> {
    match e
    case Json(v) => Done(v)
    case _ => Threw
  }

  // ---- the facade: every throw is caught ----

  /** `Storage.set`: writes the serialised value, or leaves the store as it
      was when the write throws. Only `key` can change. */
  function Set<V>(s: Store<V>, key: string, value: V): (s': Store<V>)
    ensures s'.health == s.health
    ensures s.health == Healthy ==> s'.entries == s.entries[key := Json(value)]
    ensures s.health != Healthy ==> s' == s
  {
    match SetItem(s, key, Stringify(value))
    case Done(next) => next
    case Threw => s
  }

  /** `Storage.get`: the stored value when the key holds text that parses,
      `default` in every other case (missing key, empty item, text that does
      not parse, store unavailable). */
  function Get<V>(s: Store<V>, key: string, default: V): (r: V)
    ensures if s.health != Unavailable && key in s.entries && s.entries[key].Json?
            then r == s.entries[key].value
            else r == default
  {
    match GetItem(s, key)
    case Threw => default
    case Done(None) => default
    case Done(Some(Blank)) => default
    case Done(Some(item)) =>
      match Parse(item)
      case Done(v) => v
      case Threw => default
  }

  /** `Storage.remove`: deletes the key, or leaves the store as it was when
      the call throws. */
  function Remove<V>(s: Store<V>, key: string): (s': Store<V>)
    ensures s'.health == s.health
    ensures s.health != Unavailable ==> key !in s'.entries
    ensures s.health == Unavailable ==> s' == s
    ensures forall k :: k != key && k in s.entries ==> k in s'.entries && s'.entries[k] == s.entries[k]
    ensures forall k :: k in s'.entries ==> k in s.entries
  {
    match RemoveItem(s, key)
    case Done(next) => next
    case Threw => s
  }

  // ---- properties ----

  /** A value written to a working store reads back, whatever the default. */
  lemma GetAfterSet<V>(s: Store<V>, key: string, v: V, default: V)
    requires s.health == Healthy
    ensures Get(Set(s, key, v), key, default) == v
  {
  }

  /** Writing one key does not change what any other key reads. */
  lemma SetKeepsOtherKeys<V>(s: Store<V>, key: string, other: string, v: V, default: V)
    requires other != key
    ensures Get(Set(s, key, v), other, default) == Get(s, other, default)
  {
  }

  /** A write that throws (store full) leaves the old value readable. */
  lemma SetOnFullStoreKeepsOldValue<V>(s: Store<V>, key: string, v: V, default: V)
    requires s.health == Full
    ensures Get(Set(s, key, v), key, default) == Get(s, key, default)
  {
  }

  /** A missing key, a removed key and an unavailable store all read as the default. */
  lemma GetFallsBack<V>(s: Store<V>, key: string, default: V)
    ensures key !in s.entries ==> Get(s, key, default) == default
    ensures Get(Remove(s, key), key, default) == default
    ensures s.health == Unavailable ==> Get(s, key, default) == default
  {
  }

  /** Writing the same value twice is writing it once, and removing after a
      write is the same as removing. */
  lemma SetIdempotent<V>(s: Store<V>, key: string, v: V)
    ensures Set(Set(s, key, v), key, v) == Set(s, key, v)
    ensures s.health == Healthy ==> Remove(Set(s, key, v), key) == Remove(s, key)
  {
  }
}

=== FILE: text.dfy ===
/** String helpers the handlers rely on: JavaScript's white-space class
    (`\s` in a regular expression, and what `String.prototype.trim` strips),
    trimming, ASCII case mapping, and the decimal rendering of a count that a
    template literal such as `${count}` produces. */
module Text {

  /** The characters ECMAScript counts as white space or line terminators:
      TAB, LF, VT, FF, CR, SPACE, NBSP, OGHAM SPACE MARK, U+2000..U+200A,
      LINE and PARAGRAPH SEPARATOR, NARROW NBSP, MEDIUM MATHEMATICAL SPACE,
      IDEOGRAPHIC SPACE and the byte-order mark. `\s` and `trim` use the same set. */
  predicate IsSpace(c: char) {
    || c == '\t' || c == '\n' || c == '\U{000B}' || c == '\U{000C}' || c == '\r'
    || c == ' ' || c == '\U{00A0}' || c == '\U{1680}'
    || ('\U{2000}' <= c <= '\U{200A}')
    || c == '\U{2028}' || c == '\U{2029}' || c == '\U{202F}' || c == '\U{205F}'
    || c == '\U{3000}' || c == '\U{FEFF}'
  }

  /** Every character of `s` in positions `lo` to `hi - 1` is white space. */
  predicate SpaceBetween(s: string, lo: int, hi: int)
    requires 0 <= lo && hi <= |s|
  {
    forall i :: lo <= i < hi ==> IsSpace(s[i])
  }

  /** Drops the leading white space: what is removed is all white space, and
      what is left is a suffix that does not start with white space. */
  function TrimStart(s: string): (r: string)
    ensures |r| <= |s| && r == s[|s| - |r|..]
    ensures SpaceBetween(s, 0, |s| - |r|)
    ensures r == [] || !IsSpace(r[0])
    decreases |s|
  {
    if |s| > 0 && IsSpace(s[0]) then TrimStart(s[1..]) else s
  }

  /** Drops the trailing white space: what is removed is all white space, and
      what is left is a prefix that does not end with white space. */
  function TrimEnd(s: string): (r: string)
    ensures |r| <= |s| && r == s[..|r|]
    ensures SpaceBetween(s, |r|, |s|)
    ensures r == [] || !IsSpace(r[|r| - 1])
    decreases |s|
  {
    if |s| > 0 && IsSpace(s[|s| - 1]) then TrimEnd(s[..|s| - 1]) else s
  }

  /** `String.prototype.trim`: the infix of `s` left after removing white space
      at both ends. Empty exactly when `s` is all white space. */
  function Trim(s: string): (r: string)
    ensures |r| <= |s|
    ensures r == [] || (!IsSpace(r[0]) && !IsSpace(r[|r| - 1]))
    ensures exists k :: 0 <= k <= |s| - |r| && r == s[k..k + |r|]
                        && SpaceBetween(s, 0, k) && SpaceBetween(s, k + |r|, |s|)
    ensures r == [] <==> SpaceBetween(s, 0, |s|)
  {
    var t := TrimStart(s);
    var r := TrimEnd(t);
    TrimShape(s, t, r);
    r
  }

  lemma TrimShape(s: string, t: string, r: string)
    requires |t| <= |s| && t == s[|s| - |t|..] && SpaceBetween(s, 0, |s| - |t|)
    requires |r| <= |t| && r == t[..|r|] && SpaceBetween(t, |r|, |t|)
    requires r == [] || !IsSpace(r[0])
    ensures exists k :: 0 <= k <= |s| - |r| && r == s[k..k + |r|]
                        && SpaceBetween(s, 0, k) && SpaceBetween(s, k + |r|, |s|)
    ensures r == [] <==> SpaceBetween(s, 0, |s|)
  {
    var k := |s| - |t|;
    assert r == s[k..k + |r|] by {
      forall i | 0 <= i < |r| ensures r[i] == s[k + i] {
        assert r[i] == t[i];
      }
    }
    assert SpaceBetween(s, k + |r|, |s|) by {
      forall i | k + |r| <= i < |s| ensures IsSpace(s[i]) {
        assert s[i] == t[i - k];
      }
    }
    assert 0 <= k <= |s| - |r| && r == s[k..k + |r|]
           && SpaceBetween(s, 0, k) && SpaceBetween(s, k + |r|, |s|);
  }

  lemma TrimIdempotent(s: string)
    ensures Trim(Trim(s)) == Trim(s)
  {
    TrimUnpadded(Trim(s));
  }

  /** A string with no white space at either end is its own trim. */
  lemma TrimUnpadded(s: string)
    requires s == [] || (!IsSpace(s[0]) && !IsSpace(s[|s| - 1]))
    ensures Trim(s) == s
  {
    assert TrimStart(s) == s;
    assert TrimEnd(s) == s;
  }

  predicate IsAsciiLower(c: char) { 'a' <= c <= 'z' }
  predicate IsAsciiUpper(c: char) { 'A' <= c <= 'Z' }

  function UpperChar(c: char): (u: char)
    ensures !IsAsciiLower(u)
  {
    if IsAsciiLower(c) then (c as int - 32) as char else c
  }

  function LowerChar(c: char): (l: char)
    ensures !IsAsciiUpper(l)
  {
    if IsAsciiUpper(c) then (c as int + 32) as char else c
  }

  /** `toUpperCase` restricted to ASCII: same length, no lower-case ASCII
      letter left, and every other character kept. */
  function Upper(s: string): (r: string)
    ensures |r| == |s|
    ensures forall i :: 0 <= i < |r| ==> !IsAsciiLower(r[i])
    ensures forall i :: 0 <= i < |r| && !IsAsciiLower(s[i]) ==> r[i] == s[i]
  {
    seq(|s|, i requires 0 <= i < |s| => UpperChar(s[i]))
  }

  /** `toLowerCase` restricted to ASCII, the dual of `Upper`. */
  function Lower(s: string): (r: string)
    ensures |r| == |s|
    ensures forall i :: 0 <= i < |r| ==> !IsAsciiUpper(r[i])
    ensures forall i :: 0 <= i < |r| && !IsAsciiUpper(s[i]) ==> r[i] == s[i]
  {
    seq(|s|, i requires 0 <= i < |s| => LowerChar(s[i]))
  }

  lemma LowerOfLower(s: string)
    requires forall i :: 0 <= i < |s| ==> !IsAsciiUpper(s[i])
    ensures Lower(s) == s
  {
  }

  predicate IsDigit(c: char) { '0' <= c <= '9' }

  predicate AllDigits(s: string) {
    forall i :: 0 <= i < |s| ==> IsDigit(s[i])
  }

  function DigitChar(d: nat): (c: char)
    requires d < 10
    ensures IsDigit(c)
  {
    (48 + d) as char
  }

  function DigitValue(c: char): (d: nat)
    requires IsDigit(c)
    ensures d < 10 && DigitChar(d) == c
  {
    c as int - 48
  }

  /** The decimal numeral of `n`, as `${n}` renders a non-negative integer:
      only digits, never empty, and no leading zero except for `0` itself. */
  function Decimal(n: nat): (r: string)
    ensures |r| >= 1 && AllDigits(r)
    ensures r[0] == '0' ==> n == 0
  {
    if n < 10 then [DigitChar(n)] else Decimal(n / 10) + [DigitChar(n % 10)]
  }

  /** Reads a run of digits back as a number. */
  function ParseDecimal(s: string): nat
    requires AllDigits(s)
  {
    if s == [] then 0 else ParseDecimal(s[..|s| - 1]) * 10 + DigitValue(s[|s| - 1])
  }

  /** The numeral `Decimal` writes reads back as the same number. */
  lemma {:induction false} ParseDecimalOfDecimal(n: nat)
    ensures ParseDecimal(Decimal(n)) == n
  {
    if n >= 10 {
      var s := Decimal(n);
      assert s[..|s| - 1] == Decimal(n / 10);
      ParseDecimalOfDecimal(n / 10);
    }
  }

  /** Different numbers never render to the same numeral. */
  lemma DecimalInjective(a: nat, b: nat)
    requires Decimal(a) == Decimal(b)
    ensures a == b
  {
    ParseDecimalOfDecimal(a);
    ParseDecimalOfDecimal(b);
  }
}

=== FILE: theme.dfy ===
/** `ThemeManager` (js/script.js:107-147). */
module ThemeManager {
  import opened Common
  import Text
  import Dom
  import Storage
  import opened AppState

  const Key: string := "theme"
  const Default: string := "light"

  /** The two themes the toggle moves between. */
  predicate IsTheme(t: string) {
    t == "light" || t == "dark"
  }

  /** The `.theme-icon` glyphs: a sun (U+2600 with emoji presentation) while
      dark, a crescent moon otherwise. */
  const Sun: string := "\U{2600}\U{FE0F}"
  const Moon: string := "\U{1F319}"

  function Icon(theme: string): (icon: string)
    ensures icon == Sun <==> theme == "dark"
    ensures icon == Moon <==> theme != "dark"
  {
    if theme == "dark" then Sun else Moon
  }

  /** The document side of `setTheme`: `data-theme` on the root element, and
      the icon text when the page has the icon. Nothing else changes. */
  function Render(doc: Dom.Document, theme: string): (d: Dom.Document)
    ensures Dom.GetAttribute(d.root, "data-theme") == Some(theme)
    ensures forall n :: Text.Lower(n) != "data-theme" ==> Dom.GetAttribute(d.root, n) == Dom.GetAttribute(doc.root, n)
    ensures d.themeIcon.Some? <==> doc.themeIcon.Some?
    ensures d.themeIcon.Some? ==> (d.themeIcon.value == Sun <==> theme == "dark")
    ensures d.themeIcon == if doc.themeIcon.Some? then Some(Icon(theme)) else None
    ensures d.root.text == doc.root.text
    ensures d.elements == doc.elements && d.meta == doc.meta && d.title == doc.title
    ensures d.langText == doc.langText
  {
    Text.LowerOfLower("data-theme");
    var root := Dom.SetAttribute(doc.root, "data-theme", theme);
    var icon := if doc.themeIcon.Some? then Some(Icon(theme)) else None;
    doc.(root := root, themeIcon := icon)
  }

  /** `setTheme(theme)`: any string is taken as is. The in-memory theme, the
      root attribute and (on a working store) the stored value all become
      `theme`; then a `themeChanged` notification carrying `theme` fires,
      after every other change. The language and category are untouched. */
  function SetTheme(w: World, theme: string): (w': World)
    ensures w'.state == w.state.(theme := theme)
    ensures CurrentTheme(w') == theme
    ensures Dom.GetAttribute(w'.doc.root, "data-theme") == Some(theme)
    ensures w'.doc.elements == w.doc.elements
    ensures w'.doc == Render(w.doc, theme)
    ensures w.store.health == Storage.Healthy ==> Storage.Get(w'.store, Key, Default) == theme
    ensures w.store.health == Storage.Healthy ==>
              w'.store.entries == w.store.entries[Key := Storage.Json(theme)] && w'.store.health == w.store.health
    ensures w.store.health != Storage.Healthy ==> w'.store == w.store
    ensures w'.notices == w.notices + [Notice(ThemeChanged(theme), Observe(w'))]
    ensures NotifiedLast(w')
  {
    var updated := w.(state := w.state.(theme := theme));
    var rendered := updated.(doc := Render(updated.doc, theme));
    Publish(rendered, Key, theme, ThemeChanged(theme))
  }

  /** `getCurrentTheme()`. */
  function CurrentTheme(w: World): string {
    w.state.theme
  }

  /** The theme `toggleTheme` moves to: `dark` from `light`, and `light` from
      anything else (so an unknown theme is normalised to `light`). */
  function Next(theme: string): (next: string)
    ensures IsTheme(next)
    ensures next == "dark" <==> theme == "light"
  {
    if theme == "light" then "dark" else "light"
  }

  /** `toggleTheme()`. */
  function Toggle(w: World): (w': World)
    ensures IsTheme(CurrentTheme(w'))
    ensures CurrentTheme(w') != CurrentTheme(w)
    ensures CurrentTheme(w') == Next(CurrentTheme(w))
    ensures w'.state == w.state.(theme := CurrentTheme(w'))
    ensures w.store.health != Storage.Healthy ==> w'.store == w.store
    ensures w'.doc == Render(w.doc, CurrentTheme(w'))
    ensures w.store.health == Storage.Healthy ==> Storage.Get(w'.store, Key, Default) == CurrentTheme(w')
    ensures w'.notices == w.notices + [Notice(ThemeChanged(CurrentTheme(w')), Observe(w'))]
  {
    SetTheme(w, Next(w.state.theme))
  }

  /** `init()` without the click wiring: the stored theme, or `light` when
      nothing usable is stored. A stored value outside the two themes is
      applied as is. */
  function Init(w: World): (w': World)
    ensures CurrentTheme(w') ==
              if w.store.health != Storage.Unavailable && Key in w.store.entries && w.store.entries[Key].Json?
              then w.store.entries[Key].value
              else Default
    ensures w' == SetTheme(w, if w.store.health != Storage.Unavailable && Key in w.store.entries && w.store.entries[Key].Json?
                              then w.store.entries[Key].value
                              else Default)
    ensures NotifiedLast(w')
  {
    SetTheme(w, Storage.Get(w.store, Key, Default))
  }

  /** On the two themes, toggling is an involution. */
  lemma NextInvolution(theme: string)
    requires IsTheme(theme)
    ensures Next(Next(theme)) == theme
  {
  }

  /** Toggling twice from either theme restores the theme and the root
      attribute, leaves the icon (when the page has one) showing that
      theme's symbol, and fires two notifications. */
  lemma ToggleTwice(w: World)
    requires IsTheme(w.state.theme)
    ensures Toggle(Toggle(w)).state == w.state
    ensures Dom.GetAttribute(Toggle(Toggle(w)).doc.root, "data-theme") == Some(w.state.theme)
    ensures Toggle(Toggle(w)).doc.themeIcon == if w.doc.themeIcon.Some? then Some(Icon(w.state.theme)) else None
    ensures |Toggle(Toggle(w)).notices| == |w.notices| + 2
  {
  }

  /** From an unknown theme, one toggle gives `light` and a second `dark`. */
  lemma ToggleFromUnknown(w: World)
    requires !IsTheme(w.state.theme)
    ensures CurrentTheme(Toggle(w)) == "light"
    ensures CurrentTheme(Toggle(Toggle(w))) == "dark"
  {
  }

  /** With nothing stored, or an unreadable store, start-up gives `light`. */
  lemma InitDefaultsToLight(w: World)
    requires Key !in w.store.entries || w.store.health == Storage.Unavailable
    ensures CurrentTheme(Init(w)) == "light"
    ensures Init(w).doc.themeIcon.Some? ==> Init(w).doc.themeIcon.value == Moon
  {
  }

  /** A stored theme outside `light`/`dark` is not replaced by the default. */
  lemma InitKeepsUnknownTheme(w: World)
    requires w.store.health == Storage.Healthy
    requires w.store.entries == map[Key := Storage.Json("blue")]
    ensures CurrentTheme(Init(w)) == "blue"
    ensures !IsTheme(CurrentTheme(Init(w)))
  {
  }

  /** Scenario: toggling from `light` gives `dark`, stores `dark`, and fires
      `themeChanged` with `dark`. */
  lemma ToggleFromLight(w: World)
    requires w.state.theme == "light" && w.store.health == Storage.Healthy
    ensures CurrentTheme(Toggle(w)) == "dark"
    ensures Storage.Get(Toggle(w).store, Key, Default) == "dark"
    ensures Toggle(w).notices[|Toggle(w).notices| - 1].event == ThemeChanged("dark")
  {
  }
}
